=== FILE: README.md ===
# Five FreeCAD GUI cores, modelled in Dafny

This project models five small, deterministic pieces of FreeCAD's GUI code as
pure functions over immutable records, and proves properties of them.

- **Draft snapper** (`Snapper`, `snapper.dfy`). This covers the snapper's bookkeeping:
  - the active-snap list and its `snapModes` preference string of 0/1 flags;
  - the "Lock" master switch and `toggle_snap`;
  - the list of recently snapped objects, capped at eight;
  - the two-slot buffer of extension lines and the hold points;
  - the choice of the winning snap point, and the reset done by `off`.
- **Sketcher/Coin datum label** (`DatumLabel`, `datum_label.dfy`). This covers the geometry-free parts of `SoDatumLabel`:
  - the power-of-two texture size;
  - the bounding box of a label's corners and the point-count guards;
  - the dispatch of the label text centre;
  - the half-turn that keeps text upright;
  - the segment count of `glDrawArc`;
  - the flag that caches the rendered text image.
- **TechDraw dimension task panel** (`TaskDimension`, `task_dimension.dfy`). The tolerance widgets are modelled as a state machine:
  - the theoretically-exact, equal-tolerance and arbitrary-tolerance check boxes;
  - the over/under spin boxes with their unit and lower bound;
  - the two format-specifier fields;
  - which widgets are enabled;
  - the feature properties the handlers write;
  - the undo transaction that `accept` commits and `reject` aborts.
- **BIM materials** (`ArchMaterial`, `arch_material.dfy`). For the multi-material layer table:
  - inverting, moving and deleting rows;
  - the total-thickness label;
  - writing the table back in `accept`, and loading an existing multi-material.

  For single materials: their `Father` key and the children a material claims in the tree.
- **CAM icon view provider** (`IconViewProvider`, `icon_view_provider.dfy`):
  - the icon resource path;
  - the `dumps`/`loads` state;
  - the recorded edit callback and what `setEdit`/`unsetEdit` ask it to do;
  - the `_factory` registry that `Attach` consults.

`Wrappers` (`wrappers.dfy`) holds `Option`, `Result`, `NoDup`, `Subsequence`
and Python's `list.remove`.

Three things are passed in as parameters rather than modelled:
- **Geometry:**
  - points and lines are type parameters;
  - distances arrive with the snap candidates;
  - colinearity and the on-screen range test are predicates;
  - corner placement and text-centre formulas are functions.
- **Document lookups:** the document is the sequence of its objects.
- **The Python edit callback:** it is represented by the effect the provider asks for.

## Model

| member | source | states |
|---|---|---|
| Snapper.SnapKeysDistinct | src/Mod/Draft/draftguitools/gui_snapper.py:127-141 | There are fifteen snap keys and no key is listed twice, so a snap's position in the preference string is well defined. |
| Snapper.ParseSnapModes | src/Mod/Draft/draftguitools/gui_snapper.py:166-176 | The string is read exactly when every character is a digit and every flag past the fifteenth key is '0'. The result is the keys whose flag is non-zero. A non-digit gives a ValueError at its position; a non-zero flag past the last key gives an IndexError at its position. |
| Snapper.FlaggedMembers | src/Mod/Draft/draftguitools/gui_snapper.py:172-176 | A key is active exactly when some flag at its position is non-zero. |
| Snapper.FlaggedInKeyOrder | src/Mod/Draft/draftguitools/gui_snapper.py:172-176 | The active snaps read from the string contain no duplicates and only keys within the string's length, and they appear in key order. |
| Snapper.SaveSnapState | src/Mod/Draft/draftguitools/gui_snapper.py:1551-1561 | The saved string has one character per snap key: '1' exactly when that key is active, '0' otherwise. |
| Snapper.SaveThenParse | src/Mod/Draft/draftguitools/gui_snapper.py:1551-1561 | Reading back a saved string never raises. It yields exactly the active snaps that are real keys, each once. |
| Snapper.ParseThenSave | src/Mod/Draft/draftguitools/gui_snapper.py:166-176 | Saving what a full-length 0/1 string reads as gives back that string. |
| Snapper.ToggleSnap | src/Mod/Draft/draftguitools/gui_snapper.py:1529-1548 | `set_to=True` turns the snap on and returns True. Any other `set_to` (None, or the falsy False) flips the snap, and the result is True exactly when it was off. Other snaps are unchanged, no snap is listed twice, and the saved string describes the new list. |
| Snapper.LockOffDisablesAll | src/Mod/Draft/draftguitools/gui_snapper.py:1521-1526 | Toggling "Lock" off returns False, and `isEnabled` then reports every snap as disabled. |
| Snapper.ToggleTwice | src/Mod/Draft/draftguitools/gui_snapper.py:1529-1548 | Toggling the same snap twice restores the set of active snaps. |
| Snapper.RecordObject | src/Mod/Draft/draftguitools/gui_snapper.py:450-454 | The recorded name becomes the last entry and the list keeps at most eight names. The earlier names are the tail of the old list with the name's first occurrence removed. Distinct names stay distinct. |
| Snapper.UpdateExtensions | src/Mod/Draft/draftguitools/gui_snapper.py:634-644 | A line colinear with a compared entry changes nothing. Otherwise the new line takes the first slot and the old first line moves to the second slot. The buffer never grows beyond two. |
| Snapper.AddHoldPoint | src/Mod/Draft/draftguitools/gui_snapper.py:1656-1663 | A set snap point ends up among the hold points and is appended at most once. Nothing else is added, and the old hold points stay in front in order. |
| Snapper.SelectWinner | src/Mod/Draft/draftguitools/gui_snapper.py:459-489 | `winner_all` is the first candidate of least distance below 1e18. `winner_not_near` is the same among non-passive candidates. The winner is `winner_not_near` exactly when it exists, its distance differs from the overall shortest, and it lies within snap range. Otherwise the winner is `winner_all`. |
| Snapper.Initial | src/Mod/Draft/draftguitools/gui_snapper.py:166-176 | The state after construction is valid, with no recent objects, extensions or hold points, and a zero radius. A key among the first fifteen is active exactly when its character in the preference string is not `0`, and no other snap is active. |
| Snapper.Off | src/Mod/Draft/draftguitools/gui_snapper.py:1222-1229 | `off` clears the hold points and recent objects, clears the mask, leaves select mode, stops running and zeroes the radius. The active snaps and extension lines are kept, and validity is preserved. |
| Snapper.StepsPreserveValid | src/Mod/Draft/draftguitools/gui_snapper.py:450-454 | Toggling, recording an object, updating extensions, adding a hold point and `off` each keep the snapper valid. Valid means: no duplicate snaps, at most eight distinct recent objects, at most two extension lines and distinct hold points. |
| DatumLabel.PowerOfTwoTestCorrect | src/Gui/SoDatumLabel.cpp:1625 | The test `(w & (w-1)) == 0` holds exactly when w is zero or a power of two. |
| DatumLabel.Pow2IsPowerOfTwo | src/Gui/SoDatumLabel.cpp:1632 | `1 << i` is a power of two. |
| DatumLabel.TextureSizeAsWrittenBounds | src/Gui/SoDatumLabel.cpp:1621-1646 | As written: a power-of-two width is kept. Any other width below 256 becomes the least power of two above it. Any non-power-of-two width above 256 becomes 256. |
| DatumLabel.CappedTextureTooSmall | src/Gui/SoDatumLabel.cpp:1626-1632 | As written, a 300-pixel image gets a 256-pixel texture. |
| DatumLabel.TextureSizeFits | src/Gui/SoDatumLabel.cpp:1621-1646 | Corrected: a power-of-two width is kept, and any other width becomes the least power of two above it. So the texture always holds the image. |
| DatumLabel.TextureDims | src/Gui/SoDatumLabel.cpp:1618-1646 | With non-power-of-two textures supported, the image size is used as is. Otherwise, with the corrected size, both sides become powers of two (or zero) at least as large as the image. |
| DatumLabel.GetBBox | src/Gui/SoDatumLabel.cpp:245-264 | With fewer than two corners, box and centre are untouched. Otherwise the box is the tightest x/y box around the corners, at z = 0, and the centre is its centre. |
| DatumLabel.Corners | src/Gui/SoDatumLabel.cpp:283-519 | A label with fewer points than its type needs yields no corners: one for angles, three for arc lengths, two otherwise. Otherwise it yields at least two corners. For a symmetric label they are its two points; a distance label's first corners are its two points; a radius or diameter label's first corner is its first point. |
| DatumLabel.ComputeBBox | src/Gui/SoDatumLabel.cpp:219-243 | A label with too few points keeps the previous box. Otherwise it gets the tight box of its type's corners. |
| DatumLabel.LabelTextCenter | src/Gui/SoDatumLabel.cpp:597-630 | Fewer than two points give the zero vector. Symmetric labels, and arc-length labels with only two points, centre on their first point. Distance labels place the text from the first two points, radius and diameter labels likewise, angle labels from the first point, and arc-length labels with three points from the first three. |
| DatumLabel.LabelTextCenterUsesLeadingPoints | src/Gui/SoDatumLabel.cpp:597-630 | Only the first three points matter. An angle label with one point has a bounding box but a zero text centre. |
| DatumLabel.NormalizeLabelAngle | src/Gui/SoDatumLabel.cpp:1209-1214 | For an `atan2` angle, the result lies in (-5π/12, 7π/12]. It differs from the input by 0 or ±π, and angles already in that range are unchanged. |
| DatumLabel.NormalizeLabelAngleIdempotent | src/Gui/SoDatumLabel.cpp:1342-1347 | Adjusting an adjusted angle changes nothing. |
| DatumLabel.ArcSegments | src/Gui/SoDatumLabel.cpp:84-90 | A non-zero segment count is used as given. Zero means `|int(25·range/π)|`, with a minimum of 6. |
| DatumLabel.Notify | src/Gui/SoDatumLabel.cpp:1015-1034 | A change to the string, text colour, name, size or image field invalidates the cached image. Other fields leave the flag alone. |
| DatumLabel.GetDimension | src/Gui/SoDatumLabel.cpp:1151-1159 | The image is redrawn exactly when the flag is clear, and the flag is set afterwards. |
| DatumLabel.ImageValidUntilTextChanges | src/Gui/SoDatumLabel.cpp:1015-1034 | After a run of field changes, the flag is set exactly when it was set before and none of the changes touched a text field. |
| DatumLabel.RedrawExactlyAfterTextChange | src/Gui/SoDatumLabel.cpp:1151-1159 | The first `getDimension` after construction draws the image. After that it redraws exactly when a text field has changed. |
| TaskDimension.Clamp | src/Mod/TechDraw/Gui/TaskDimension.cpp:80-81 | With the lower bound at zero, a negative value becomes zero. Otherwise the value is kept. |
| TaskDimension.OpenPanel | src/Mod/TechDraw/Gui/TaskDimension.cpp:50-158 | The constructor loads the three check boxes, both format specifiers and the under tolerance from the feature. The over box shows the over tolerance, clamped at zero under equal tolerance, which also sets its lower bound. The equal-tolerance box, the over inputs and the over format are enabled exactly when the feature is not theoretically exact. The under inputs are enabled only when it is neither theoretically exact nor equal-toleranced. Angle dimensions use angle units. A transaction is opened. |
| TaskDimension.OnTheoreticallyExactChanged | src/Mod/TechDraw/Gui/TaskDimension.cpp:208-234 | Checking the box zeroes both tolerances, unchecks and disables arbitrary tolerances, and disables every tolerance input. Unchecking it re-enables them, leaving the under inputs off while equal tolerance is on. The feature's flag follows the box and no other feature property changes. The spin-box units and the starting feature are kept. |
| TaskDimension.OnEqualToleranceChanged | src/Mod/TechDraw/Gui/TaskDimension.cpp:236-259 | Checking the box puts the over tolerance's lower bound at zero (clamping a negative value), sets the under tolerance to its negation in the same unit, and disables the under inputs. Unchecking it removes the bound and re-enables the under inputs unless the tolerance is theoretically exact, leaving the values and units alone. Only the feature's equal-tolerance flag changes, and the starting feature is kept. |
| TaskDimension.OnOvertoleranceChanged | src/Mod/TechDraw/Gui/TaskDimension.cpp:261-270 | The over tolerance is stored in the feature, clamped by the box's bound. With equal tolerance, the under tolerance becomes its negation. Nothing else changes. |
| TaskDimension.OnUndertoleranceChanged | src/Mod/TechDraw/Gui/TaskDimension.cpp:272-276 | The under tolerance is stored in the feature. Nothing else changes. |
| TaskDimension.OnArbitraryTolerancesChanged | src/Mod/TechDraw/Gui/TaskDimension.cpp:327-331 | The arbitrary-tolerances flag follows the box. Nothing else changes. |
| TaskDimension.OnFormatSpecOverChanged | src/Mod/TechDraw/Gui/TaskDimension.cpp:290-307 | The over format is stored. With equal tolerances that are not arbitrary, it is copied to the under format too. In every case nothing else in the panel or the feature changes. |
| TaskDimension.OnFormatSpecUnderChanged | src/Mod/TechDraw/Gui/TaskDimension.cpp:309-325 | The mirror image: the under format is stored, and copied to the over format under equal tolerances that are not arbitrary. Nothing else in the panel or the feature changes. |
| TaskDimension.Accept | src/Mod/TechDraw/Gui/TaskDimension.cpp:165-178 | Accept returns true. With the view provider alive, the transaction is committed and the feature kept. Otherwise it only warns. |
| TaskDimension.Reject | src/Mod/TechDraw/Gui/TaskDimension.cpp:180-195 | Reject returns true. With the view provider alive, the transaction is aborted and the feature goes back to what it was when the panel opened. Otherwise it only warns. |
| TaskDimension.Apply | src/Mod/TechDraw/Gui/TaskDimension.cpp:208-331 | No tolerance handler touches the transaction or the feature it started from. |
| TaskDimension.EditsKeepLocks | src/Mod/TechDraw/Gui/TaskDimension.cpp:208-259 | Every edit through an enabled widget keeps two locks. Theoretically exact keeps every tolerance input disabled. Equal tolerance keeps the under tolerance equal to the negated, non-negative over tolerance, with the under inputs disabled. |
| TaskDimension.EditRunKeepsLocks | src/Mod/TechDraw/Gui/TaskDimension.cpp:208-331 | Any run of such edits keeps both locks. |
| TaskDimension.EditRunKeepsOriginal | src/Mod/TechDraw/Gui/TaskDimension.cpp:157-158 | Any run of edits leaves the open transaction and its starting feature as they were. |
| TaskDimension.AcceptKeepsRejectRestores | src/Mod/TechDraw/Gui/TaskDimension.cpp:165-195 | After any edits, accepting commits the edited feature, and rejecting restores the feature the panel opened on. |
| ArchMaterial.InvertLayer | src/Mod/BIM/ArchMaterial.py:840-844 | Taking every row from the end, reversing the taken rows and inserting each at the top leaves the table exactly reversed. |
| ArchMaterial.InvertLayerReverses | src/Mod/BIM/ArchMaterial.py:840-844 | Taking every row from the end, reversing the taken rows and inserting each at the top leaves the table exactly reversed. Inverting twice restores it. |
| ArchMaterial.InsertRow | src/Mod/BIM/ArchMaterial.py:830 | Inserting at an index from 0 to the row count puts the row there, and taking it out again gives back the table. Any other index leaves the table unchanged. |
| ArchMaterial.MoveLayerAsWritten | src/Mod/BIM/ArchMaterial.py:823-832 | As written: a move whose target is past the last row removes the selected row. Every other move agrees with the corrected `MoveLayer`. |
| ArchMaterial.MoveLastRowDownDropsIt | src/Mod/BIM/ArchMaterial.py:823-832 | As written, moving the last row down removes it from the table. |
| ArchMaterial.MoveLayer | src/Mod/BIM/ArchMaterial.py:823-832 | Corrected: moving a selected row by a non-zero step within the table puts it at its new place and keeps the other rows in order, so the rows are permuted. Anything else leaves the table unchanged. |
| ArchMaterial.ReinsertFacts | src/Mod/BIM/ArchMaterial.py:828-829 | `takeRow` followed by `insertRow` at an index inside the table permutes the rows. The moved row lands at the target, and the rest keep their order. |
| ArchMaterial.MoveUpSwaps | src/Mod/BIM/ArchMaterial.py:834-835 | `upLayer` swaps the selected row with the one above it. |
| ArchMaterial.MoveDownSwaps | src/Mod/BIM/ArchMaterial.py:837-838 | `downLayer` swaps the selected row with the one below it. |
| ArchMaterial.UpThenDown | src/Mod/BIM/ArchMaterial.py:834-838 | Moving a row up and then down again restores the table. |
| ArchMaterial.DelLayer | src/Mod/BIM/ArchMaterial.py:815-821 | With a selection, exactly the first selected row is removed. Without one, nothing changes. |
| ArchMaterial.RecalcThickness | src/Mod/BIM/ArchMaterial.py:846-863 | The total is the sum of the absolute thicknesses and is never negative. The "depends on the object" suffix appears exactly when some layer's thickness is zero, and always when a non-empty table totals zero. |
| ArchMaterial.MaterialObjects | src/Mod/BIM/ArchMaterial.py:870-873 | The candidates are exactly the document's material objects, in document order and with their multiplicity. |
| ArchMaterial.LastWithCaption | src/Mod/BIM/ArchMaterial.py:879-883 | The search finds the last material object with the row's label, and finds nothing exactly when no material object has that label. |
| ArchMaterial.Resolve | src/Mod/BIM/ArchMaterial.py:879-883 | A row's material label resolves to the last material object with that label, or to nothing when no material object has it. |
| ArchMaterial.KeptLayers | src/Mod/BIM/ArchMaterial.py:877-896 | A layer is written exactly when some row has a non-empty name and a material that resolves. The layers are those of the kept rows, one each and in row order, with the row's name, resolved material and thickness, a thickness below 5·10⁻³³ in magnitude becoming 0. When every row qualifies, none is lost. |
| ArchMaterial.KeptRows | src/Mod/BIM/ArchMaterial.py:877-896 | The rows `accept` keeps are a subsequence of the table. Each has a name and a material that resolves, and each such row is kept as often as it occurs. |
| ArchMaterial.KeptRowsAllKept | src/Mod/BIM/ArchMaterial.py:877-896 | When every row qualifies, the kept rows are the table itself. |
| ArchMaterial.Accept | src/Mod/BIM/ArchMaterial.py:865-901 | With an object, its names, materials and thicknesses become three equal-length lists of the kept layers, in order. Its label becomes the name field when that is not empty. Without an object, nothing is written. |
| ArchMaterial.WriteLayers | src/Mod/BIM/ArchMaterial.py:897-899 | The three lists have one entry per layer, and entry i of each list is the i-th layer's name, material and thickness. |
| ArchMaterial.FillData | src/Mod/BIM/ArchMaterial.py:774-787 | There is one row per layer, showing the layer's name, its material's label and its thickness. The name field shows the object's label. |
| ArchMaterial.FromExisting | src/Mod/BIM/ArchMaterial.py:801-807 | Combo index k from 1 to the number of entries loads `existing[k-1]`, which alone must have three equal-length lists. Other indices change nothing. |
| ArchMaterial.FillThenAcceptRoundTrip | src/Mod/BIM/ArchMaterial.py:774-903 | Loading a multi-material and accepting it unchanged writes back the same label and layers. This holds when every layer is named, no thickness is a non-zero value below 5·10⁻³³ in magnitude, and each layer's material is a document material with a label no other material shares. |
| ArchMaterial.ResolveUnique | src/Mod/BIM/ArchMaterial.py:879-883 | A document material whose label no other material shares is what that label resolves to. |
| ArchMaterial.MaterialFromExisting | src/Mod/BIM/ArchMaterial.py:539-546 | Combo index k from 1 to the number of entries takes the k-th existing material's dictionary, unless it is empty. Other indices change nothing. |
| ArchMaterial.SetFather | src/Mod/BIM/ArchMaterial.py:548-556 | Empty text changes nothing. "None" removes the `Father` key. Any other text sets it. No other key changes. |
| ArchMaterial.ClaimChildren | src/Mod/BIM/ArchMaterial.py:402-411 | The children are exactly the material objects whose non-empty dictionary names this object's label as `Father`, in document order and with their multiplicity. An unattached provider claims nothing. |
| ArchMaterial.SetFatherThenClaim | src/Mod/BIM/ArchMaterial.py:548-556 | Choosing a parent's label makes the material one of that parent's children. Choosing "None" makes it nobody's child. |
| IconViewProvider.NewProvider | src/Mod/CAM/Path/Base/Gui/IconViewProvider.py:44-51 | A new provider has the given icon and both edit attributes set to None. |
| IconViewProvider.GetIcon | src/Mod/CAM/Path/Base/Gui/IconViewProvider.py:70-71 | The path is `:/icons/CAM_`, then the icon as `str` prints it (None as "None"), then `.svg`. |
| IconViewProvider.GetIconInjective | src/Mod/CAM/Path/Base/Gui/IconViewProvider.py:70-71 | Two providers get the same path exactly when their icons print the same. |
| IconViewProvider.Dumps | src/Mod/CAM/Path/Base/Gui/IconViewProvider.py:57-62 | A provider that has `editModule` but no `editCallback` raises AttributeError('editCallback'). Otherwise the state always holds the icon, holds `editModule` and `editCallback` exactly when the provider has `editModule`, and holds nothing else. |
| IconViewProvider.Loads | src/Mod/CAM/Path/Base/Gui/IconViewProvider.py:64-68 | A missing icon raises KeyError('icon') and changes nothing. Otherwise the icon is restored. When `editModule` is truthy it is restored too, and then a missing `editCallback` raises KeyError('editCallback'), leaving the provider with the new icon and module but its old callback. Otherwise the edit attributes are untouched and nothing is raised. |
| IconViewProvider.LoadsDumpsSame | src/Mod/CAM/Path/Base/Gui/IconViewProvider.py:57-68 | Loading a provider's own state into it changes nothing. |
| IconViewProvider.LoadsDumpsRestores | src/Mod/CAM/Path/Base/Gui/IconViewProvider.py:57-68 | Restoring a saved state into a blank provider never raises and keeps the icon. It keeps the edit pair when its module is truthy; otherwise the restored provider has neither edit attribute. |
| IconViewProvider.OnEdit | src/Mod/CAM/Path/Base/Gui/IconViewProvider.py:73-75 | The callback's module and name are recorded, and the icon is kept. |
| IconViewProvider.EditCallback | src/Mod/CAM/Path/Base/Gui/IconViewProvider.py:77-81 | There are four outcomes. Without `editModule`, nothing is called. A None module makes `import_module` fail. A module name without an `editCallback` attribute is imported, and then the callback lookup raises AttributeError. Otherwise the recorded module's callback is called with the given flag. |
| IconViewProvider.SetEdit | src/Mod/CAM/Path/Base/Gui/IconViewProvider.py:83-86 | `setEdit` returns False whenever it returns; with an `ImportOfNone` or `ImportThenNoCallback` effect it raises instead, so the False is meaningful only for `NoCall` and `Call`. It fires the callback with True only for mode 0. |
| IconViewProvider.UnsetEdit | src/Mod/CAM/Path/Base/Gui/IconViewProvider.py:88-89 | `unsetEdit` has the effect of the edit callback with False. |
| IconViewProvider.OnEditThenEdit | src/Mod/CAM/Path/Base/Gui/IconViewProvider.py:73-89 | After `onEdit(cb)`, `setEdit` in mode 0 calls `cb` with True, other modes call nothing, and `unsetEdit` calls `cb` with False. |
| IconViewProvider.FreshAndRestoredDiffer | src/Mod/CAM/Path/Base/Gui/IconViewProvider.py:44-81 | A new provider never given `onEdit` fails when edited in mode 0. A copy restored from its saved state does nothing. |
| IconViewProvider.RestoredEditsAlike | src/Mod/CAM/Path/Base/Gui/IconViewProvider.py:57-81 | A provider given a callback with a non-empty module edits the same way after saving and restoring. |
| IconViewProvider.HalfLoadedProvider | src/Mod/CAM/Path/Base/Gui/IconViewProvider.py:64-81 | Loading a state with a module name but no callback into a blank provider raises KeyError('editCallback') and leaves the module set without a callback. Saving that provider raises AttributeError, and editing it imports the module and then finds no callback. |
| IconViewProvider.Attach | src/Mod/CAM/Path/Base/Gui/IconViewProvider.py:107-117 | A name registered in the factory gets its registered provider, constructed with the name. Any other name gets a new generic provider whose icon is the name. |
| IconViewProvider.RegisterViewProvider | src/Mod/CAM/Path/Base/Gui/IconViewProvider.py:120-126 | The name maps to the new provider, overwriting any earlier registration. Other names keep theirs. |
| IconViewProvider.RegisterThenAttach | src/Mod/CAM/Path/Base/Gui/IconViewProvider.py:107-126 | After registering a provider for a name, `Attach` uses it for that name and behaves as before for every other name. |

## Left out

- Coin/OpenGL drawing, Qt widgets, signal wiring and the Qt context menu are not modelled, and neither are trackers, cursors or toolbar buttons. They are effects on screen, not logic.
- Geometry is supplied from outside. This covers:
  - the distance and on-screen range tests of the snapper and `DraftGeomUtils.areColinear`;
  - the trigonometric corner placement of the datum label's bounding boxes;
  - the per-type text-centre formulas.

  They are function parameters, so properties hold for any such function.
- Floating point is not modelled: reals stand in for `float` and `double`. Several consequences follow:
  - NaN and infinity are not modelled.
  - The bounding-box computation assumes corner coordinates within ±FLT_MAX.
  - The angle adjustment uses the 16-digit decimal 3.141592653589793 for π, not its `float` cast.
  - `accept` writes 0.0 for a thickness below 5·10⁻³³ in magnitude, which is where `round(thick, 32)` becomes zero; the exact boundary under binary floating-point rounding is not modelled.
- Unit parsing is not modelled:
  - A row's thickness is the number its text parses to, by `float` or by `FreeCAD.Units.Quantity`.
  - The label's `UserString` formatting is not modelled.
  - `FillThenAcceptRoundTrip` assumes the displayed user-preferred thickness parses back to the same value.
- `int()` on non-ASCII digits is not modelled. `ParseSnapModes` treats only '0'-'9' as digits, whereas Python's `int` also accepts other Unicode decimal digits.
- Snapper: the rest of `snap`, `snapToObject` and `snapToExtensions` is not modelled. Only the `lastObj`, `lastExtensions` and winner-selection fragments are.
- ToggleSnap: `set_to` is None, True or False. A truthy value that is not a bool, such as 1, takes neither branch, saves the state and then raises UnboundLocalError at `return status`; that case is not modelled.
- DatumLabel: image sizes are taken as non-negative. The bit test on a negative `int` is not modelled.
- TaskDimension:
  - A handler's own widget updates re-emit Qt signals; these re-entrant calls are not followed. In particular, checking theoretically exact zeroes the spin boxes, but the zeroed tolerances reach the feature only through the re-emitted `valueChanged` signals, which the model does not follow.
  - Only the tolerance part of the panel is modelled, not the formatting, arrow, colour, font and angle controls.
  - `recomputeFeature` and `updateView` are not modelled.
  - An abort is modelled as restoring the feature's tolerance properties.
- ArchMaterial:
  - `fillData` is modelled for multi-materials whose three lists have equal length (`WellFormed`). Python would raise an IndexError on a shorter list. Longer material or thickness lists are excluded too, although Python accepts them and reads only the first `len(Names)` entries.
  - The current-index update after a move is not modelled.
  - The column-width preferences and the final `recompute`/`resetEdit` are not modelled.
  - Label uniqueness adjustments made by the document when a label is set are not modelled.
  - `addLayer` and the material card and colour dialogs are not modelled.
- IconViewProvider:
  - Whether `import_module` finds the module, and `getattr` finds the function, depends on the installed code, so `Call` names the call without performing it.
  - An empty module name is a `Call` that `import_module` would reject.
  - `attach` and `vobj.Proxy` are object wiring and are not modelled.
  - `Blank` stands for an object created by unpickling before `loads` runs. Its missing `icon` attribute is modelled as None, which no contract depends on.

## Findings

| source | as written | input that shows it | evidently intended | confidence | as-written member | corrected member |
|---|---|---|---|---|---|---|
| src/Gui/SoDatumLabel.cpp:1621-1646 | the shift search stops at `i == 8`, so every non-power-of-two width above 256 gets a 256-pixel texture | srcw = 300 gives w = 256 < 300, so the text image does not fit its texture | the least power of two not below the width | not executed; medium | DatumLabel.CappedTextureTooSmall | DatumLabel.TextureSizeFits |
| src/Mod/BIM/ArchMaterial.py:823-832 | only `row+mvt >= 0` is checked before `takeRow(row)` and `insertRow(row+mvt, …)`, and Qt's `insertRow` ignores an index past the end of the shortened table | two rows, the second selected, "down": the table ends with only the first row | a move past the last row does nothing, like one past the first | not executed; medium (relies on `QStandardItemModel::insertRow` refusing `row > rowCount()`) | ArchMaterial.MoveLastRowDownDropsIt | ArchMaterial.MoveLayer |

=== FILE: arch_material.dfy ===
/**
 * The layer table of the BIM multi-material task panel and the material
 * dictionary operations of src/Mod/BIM/ArchMaterial.py: reversing, moving
 * and deleting layer rows, the total thickness label, writing the table back
 * to the multi-material object, loading an existing one, the `Father` key of
 * a material and the children a material claims in the tree.
 *
 * A row's thickness is the number its text parses to; the document is the
 * sequence of its objects in document order.
 */
module ArchMaterial {
  import opened Wrappers

  /** A document object, as far as these panels look at it. */
  datatype DocObject = DocObject(
    name: string,
    caption: string,                 // Label
    isMaterialObject: bool,          // derives from App::MaterialObject
    material: map<string, string>)   // its Material dictionary

  /** A row of the layer table: layer name, material label, thickness. */
  datatype Row = Row(name: string, material: string, thickness: real)

  /** A layer as the multi-material object stores it. */
  datatype Layer = Layer(name: string, material: DocObject, thickness: real)

  /** A MultiMaterial object: its label and three parallel lists. */
  datatype MultiMaterial = MultiMaterial(
    caption: string,                 // Label
    names: seq<string>,
    materials: seq<DocObject>,
    thicknesses: seq<real>)

  /** The multi-material panel: the layer table and the name field. */
  datatype LayerPanel = LayerPanel(rows: seq<Row>, nameField: string)

  // ---------------------------------------------------------------------------
  // Reversing the table
  // ---------------------------------------------------------------------------

  /** The reference reversal. */
  function Reversed<T>(s: seq<T>): (r: seq<T>)
    ensures |r| == |s|
    ensures forall i :: 0 <= i < |s| ==> r[i] == s[|s| - 1 - i]
  {
    seq(|s|, i requires 0 <= i < |s| => s[|s| - 1 - i])
  }

  /** `takeRow(row)` for row = n-1 down to 0: the rows, last first. */
  function TakeRowsFromEnd(rows: seq<Row>): seq<Row>
  {
    if |rows| == 0 then [] else [rows[|rows| - 1]] + TakeRowsFromEnd(rows[..|rows| - 1])
  }

  /** `insertRow(0, item)` for each item in turn, onto the table `acc`. */
  function InsertEachAtFront(acc: seq<Row>, items: seq<Row>): seq<Row>
    decreases |items|
  {
    if |items| == 0 then acc else InsertEachAtFront([items[0]] + acc, items[1..])
  }

  /** `invertLayer`: empty the table from the end, reverse the taken rows and
      insert each at the top. */
  function InvertLayer(rows: seq<Row>): (r: seq<Row>)
    ensures r == Reversed(rows)
  {
    TakeRowsFromEndReverses(rows);
    assert Reversed(Reversed(rows)) == rows;
    InsertEachAtFrontReverses([], rows);
    InsertEachAtFront([], Reversed(TakeRowsFromEnd(rows)))
  }

  lemma {:induction false} TakeRowsFromEndReverses(rows: seq<Row>)
    ensures TakeRowsFromEnd(rows) == Reversed(rows)
  {
    if |rows| > 0 {
      var front := rows[..|rows| - 1];
      TakeRowsFromEndReverses(front);
      assert Reversed(rows) == [rows[|rows| - 1]] + Reversed(front) by {
        forall i | 0 <= i < |rows|
          ensures Reversed(rows)[i] == ([rows[|rows| - 1]] + Reversed(front))[i]
        {
          if i > 0 { assert Reversed(front)[i - 1] == front[|front| - i]; }
        }
      }
    }
  }

  lemma {:induction false} InsertEachAtFrontReverses(acc: seq<Row>, items: seq<Row>)
    ensures InsertEachAtFront(acc, items) == Reversed(items) + acc
    decreases |items|
  {
    if |items| > 0 {
      InsertEachAtFrontReverses([items[0]] + acc, items[1..]);
      assert Reversed(items[1..]) + [items[0]] == Reversed(items);
    }
  }

  /** Inverting the table leaves the same rows in exactly reversed order, so
      inverting twice restores it. */
  lemma InvertLayerReverses(rows: seq<Row>)
    ensures InvertLayer(rows) == Reversed(rows)
    ensures InvertLayer(InvertLayer(rows)) == rows
  {
    assert Reversed(Reversed(rows)) == rows;
  }

  // ---------------------------------------------------------------------------
  // Moving and deleting rows
  // ---------------------------------------------------------------------------

  /** The first selected row, if any; a selected row exists in the table. */
  predicate ValidSelection(rows: seq<Row>, sel: Option<nat>) {
    sel.Some? ==> sel.value < |rows|
  }

  /** `rows` without the row at index `i`. */
  function Without<T>(s: seq<T>, i: nat): (r: seq<T>)
    requires i < |s|
    ensures |r| == |s| - 1
    ensures forall j :: 0 <= j < |r| ==> r[j] == (if j < i then s[j] else s[j + 1])
  {
    s[..i] + s[i + 1..]
  }

  /** `QStandardItemModel::insertRow(at, items)`: an index past the end (or
      negative) inserts nothing. */
  function InsertRow(rows: seq<Row>, at: int, row: Row): (r: seq<Row>)
    ensures 0 <= at <= |rows| ==> |r| == |rows| + 1 && r[at] == row && Without(r, at) == rows
    ensures !(0 <= at <= |rows|) ==> r == rows
  {
    if 0 <= at <= |rows| then
      InsertFacts(rows, at, row);
      rows[..at] + [row] + rows[at..]
    else rows
  }

  /** `moveLayer(mvt)` as written: take the selected row out and insert it
      `mvt` places away, guarding only against a negative target. */
  function MoveLayerAsWritten(rows: seq<Row>, sel: Option<nat>, mvt: int): (r: seq<Row>)
    requires ValidSelection(rows, sel)
    ensures !(sel.Some? && mvt != 0 && sel.value + mvt >= |rows|) ==> r == MoveLayer(rows, sel, mvt)
    ensures sel.Some? && mvt != 0 && sel.value + mvt >= |rows| ==> r == Without(rows, sel.value)
  {
    if sel.Some? && mvt != 0 && sel.value + mvt >= 0 then
      InsertRow(Without(rows, sel.value), sel.value + mvt, rows[sel.value])
    else rows
  }

  /** Moving the last row down removes it from the table. */
  lemma MoveLastRowDownDropsIt(rows: seq<Row>)
    requires |rows| > 0
    ensures MoveLayerAsWritten(rows, Some(|rows| - 1), 1) == rows[..|rows| - 1]
  {
  }

  /** `moveLayer(mvt)`, also refusing a target past the last row. */
  function MoveLayer(rows: seq<Row>, sel: Option<nat>, mvt: int): (r: seq<Row>)
    requires ValidSelection(rows, sel)
    ensures |r| == |rows| && multiset(r) == multiset(rows)
    ensures sel.Some? && mvt != 0 && 0 <= sel.value + mvt < |rows| ==>
              r[sel.value + mvt] == rows[sel.value]
              && Without(r, sel.value + mvt) == Without(rows, sel.value)
    ensures !(sel.Some? && mvt != 0 && 0 <= sel.value + mvt < |rows|) ==> r == rows
  {
    if sel.Some? && mvt != 0 && sel.value + mvt >= 0 && sel.value + mvt < |rows| then
      ReinsertFacts(rows, sel.value, sel.value + mvt);
      InsertRow(Without(rows, sel.value), sel.value + mvt, rows[sel.value])
    else rows
  }

  /** Taking row `i` out and putting it back at `at` permutes the table, and
      leaves the other rows in their order. */
  lemma ReinsertFacts(rows: seq<Row>, i: nat, at: nat)
    requires i < |rows| && at < |rows|
    ensures var r := InsertRow(Without(rows, i), at, rows[i]);
            multiset(r) == multiset(rows) && |r| == |rows|
            && r[at] == rows[i] && Without(r, at) == Without(rows, i)
  {
    var rest := Without(rows, i);
    WithoutMultiset(rows, i);
    InsertFacts(rest, at, rows[i]);
  }

  lemma WithoutMultiset<T>(s: seq<T>, i: nat)
    requires i < |s|
    ensures multiset(Without(s, i)) + multiset{s[i]} == multiset(s)
  {
    assert s == s[..i] + [s[i]] + s[i + 1..];
  }

  /** Inserting `x` at `at` and taking it out again are inverse. */
  lemma InsertFacts<T>(s: seq<T>, at: nat, x: T)
    requires at <= |s|
    ensures var r := s[..at] + [x] + s[at..];
            |r| == |s| + 1 && r[at] == x && Without(r, at) == s
            && multiset(r) == multiset(s) + multiset{x}
  {
    var r := s[..at] + [x] + s[at..];
    assert r[..at] == s[..at];
    assert r[at + 1..] == s[at..];
    assert s == s[..at] + s[at..];
  }

  /** Taking `s[i]` out and putting it back one place earlier swaps it
      with its predecessor. */
  lemma ReinsertEarlier<T>(s: seq<T>, i: nat)
    requires 0 < i < |s|
    ensures var rest := s[..i] + s[i + 1..];
            rest[..i - 1] + [s[i]] + rest[i - 1..] == s[..i - 1] + [s[i], s[i - 1]] + s[i + 1..]
  {
    var rest := s[..i] + s[i + 1..];
    assert rest[..i - 1] == s[..i - 1];
    assert rest[i - 1..] == [s[i - 1]] + s[i + 1..];
  }

  /** Taking `s[i]` out and putting it back one place later swaps it with
      its successor. */
  lemma ReinsertLater<T>(s: seq<T>, i: nat)
    requires i + 1 < |s|
    ensures var rest := s[..i] + s[i + 1..];
            rest[..i + 1] + [s[i]] + rest[i + 1..] == s[..i] + [s[i + 1], s[i]] + s[i + 2..]
  {
    var rest := s[..i] + s[i + 1..];
    assert rest[..i + 1] == s[..i] + [s[i + 1]];
    assert rest[i + 1..] == s[i + 2..];
  }

  /** `upLayer`: the selected row swaps places with the one above it. */
  lemma MoveUpSwaps(rows: seq<Row>, i: nat)
    requires 0 < i < |rows|
    ensures MoveLayer(rows, Some(i), -1) == rows[..i - 1] + [rows[i], rows[i - 1]] + rows[i + 1..]
  {
    ReinsertEarlier(rows, i);
  }

  /** `downLayer`: the selected row swaps places with the one below it. */
  lemma MoveDownSwaps(rows: seq<Row>, i: nat)
    requires i + 1 < |rows|
    ensures MoveLayer(rows, Some(i), 1) == rows[..i] + [rows[i + 1], rows[i]] + rows[i + 2..]
  {
    ReinsertLater(rows, i);
  }

  /** `upLayer` and `downLayer`: moving a row up and back down restores the table. */
  lemma UpThenDown(rows: seq<Row>, i: nat)
    requires 0 < i < |rows|
    ensures MoveLayer(MoveLayer(rows, Some(i), -1), Some(i - 1), 1) == rows
  {
    SwapTwiceRestores(rows, i);
    MoveUpSwaps(rows, i);
    MoveDownSwaps(MoveLayer(rows, Some(i), -1), i - 1);
  }

  lemma SwapTwiceRestores<T>(s: seq<T>, i: nat)
    requires 0 < i < |s|
    ensures var up := s[..i - 1] + [s[i], s[i - 1]] + s[i + 1..];
            up[..i - 1] + [up[i], up[i - 1]] + up[i + 1..] == s
  {
    var up := s[..i - 1] + [s[i], s[i - 1]] + s[i + 1..];
    assert up[..i - 1] == s[..i - 1];
    assert up[i + 1..] == s[i + 1..];
    assert s == s[..i - 1] + [s[i - 1], s[i]] + s[i + 1..];
  }

  /** `delLayer`: remove the first selected row. */
  function DelLayer(rows: seq<Row>, sel: Option<nat>): (r: seq<Row>)
    requires ValidSelection(rows, sel)
    ensures sel.None? ==> r == rows
    ensures sel.Some? ==> r == Without(rows, sel.value)
    ensures sel.Some? ==> multiset(r) + multiset{rows[sel.value]} == multiset(rows)
  {
    if sel.Some? then
      assert rows == rows[..sel.value] + [rows[sel.value]] + rows[sel.value + 1..];
      Without(rows, sel.value)
    else rows
  }

  // ---------------------------------------------------------------------------
  // Total thickness
  // ---------------------------------------------------------------------------

  function Abs(x: real): real { if x < 0.0 then -x else x }

  /** The reference total: the sum of the rows' absolute thicknesses. */
  function SumAbs(rows: seq<Row>): real
  {
    if |rows| == 0 then 0.0 else SumAbs(rows[..|rows| - 1]) + Abs(rows[|rows| - 1].thickness)
  }

  /** Some row's thickness is zero, so the total depends on the object. */
  predicate HasZeroLayer(rows: seq<Row>) {
    exists i :: 0 <= i < |rows| && rows[i].thickness == 0.0
  }

  /** `recalcThickness`: the total for the label, and whether the label
      carries the "depends on the object" suffix. */
  method RecalcThickness(rows: seq<Row>) returns (total: real, dependsOnObject: bool)
    ensures total == SumAbs(rows) && total >= 0.0
    ensures dependsOnObject <==> HasZeroLayer(rows)
    ensures |rows| > 0 && total == 0.0 ==> dependsOnObject
  {
    total := 0.0;
    dependsOnObject := false;
    for k := 0 to |rows|
      invariant total == SumAbs(rows[..k]) && total >= 0.0
      invariant dependsOnObject <==> HasZeroLayer(rows[..k])
      invariant k > 0 && total == 0.0 ==> dependsOnObject
    {
      assert rows[..k + 1][..k] == rows[..k];
      var thick := rows[k].thickness;
      total := total + Abs(thick);
      if thick == 0.0 {
        dependsOnObject := true;
      }
      assert HasZeroLayer(rows[..k + 1]) <==> HasZeroLayer(rows[..k]) || thick == 0.0 by {
        if HasZeroLayer(rows[..k]) {
          var i :| 0 <= i < k && rows[..k][i].thickness == 0.0;
          assert rows[..k + 1][i] == rows[..k][i];
        }
        if HasZeroLayer(rows[..k + 1]) {
          var i :| 0 <= i < k + 1 && rows[..k + 1][i].thickness == 0.0;
          if i < k {
            assert rows[..k][i] == rows[..k + 1][i];
          }
        }
      }
    }
    assert rows[..|rows|] == rows;
  }

  // ---------------------------------------------------------------------------
  // Writing the table back and loading an existing multi-material
  // ---------------------------------------------------------------------------

  /** The material objects of the document, in document order. */
  function MaterialObjects(doc: seq<DocObject>): (mats: seq<DocObject>)
    ensures forall m :: m in mats <==> m in doc && m.isMaterialObject
    ensures Subsequence(mats, doc)
    ensures forall o :: multiset(mats)[o] == (if o.isMaterialObject then multiset(doc)[o] else 0)
    decreases |doc|
  {
    if |doc| == 0 then []
    else
      var rest := MaterialObjects(doc[1..]);
      assert doc == [doc[0]] + doc[1..];
      if doc[0].isMaterialObject then
        assert ([doc[0]] + rest)[1..] == rest;
        [doc[0]] + rest
      else
        assert |rest| > 0 ==> rest[0] in rest && rest[0] != doc[0];
        rest
  }

  /** Where a row's label resolves: the last material of that label, as the
      search loop of `accept` keeps overwriting its choice. */
  function LastWithCaption(mats: seq<DocObject>, caption: string): (r: Option<nat>)
    ensures r.None? <==> forall i :: 0 <= i < |mats| ==> mats[i].caption != caption
    ensures r.Some? ==> r.value < |mats| && mats[r.value].caption == caption
    ensures r.Some? ==> forall j :: r.value < j < |mats| ==> mats[j].caption != caption
  {
    if |mats| == 0 then None
    else if mats[|mats| - 1].caption == caption then Some(|mats| - 1)
    else
      var prefix := mats[..|mats| - 1];
      assert forall i :: 0 <= i < |prefix| ==> prefix[i] == mats[i];
      LastWithCaption(prefix, caption)
  }

  /** The material a row's label resolves to, if any. */
  function Resolve(mats: seq<DocObject>, caption: string): (r: Option<DocObject>)
    ensures r.None? <==> forall i :: 0 <= i < |mats| ==> mats[i].caption != caption
    ensures r.Some? ==> r.value in mats && r.value.caption == caption
    ensures r.Some? ==> exists k :: 0 <= k < |mats| && mats[k] == r.value && mats[k].caption == caption
                          && forall j :: k < j < |mats| ==> mats[j].caption != caption
  {
    var k := LastWithCaption(mats, caption);
    if k.Some? then Some(mats[k.value]) else None
  }

  /** `accept` keeps a row with a name and a material that resolves. */
  predicate Keeps(mats: seq<DocObject>, row: Row) {
    row.name != "" && Resolve(mats, row.material).Some?
  }

  /** Below this magnitude `round(thick, 32)` is 0, and `accept` writes 0.0. */
  const NegligibleThickness: real := 0.000000000000000000000000000000005

  /** The thickness `accept` writes for a parsed one. */
  function Rounded(thick: real): real {
    if -NegligibleThickness < thick < NegligibleThickness then 0.0 else thick
  }

  /** The layer `accept` writes for a row it keeps. */
  function LayerOf(mats: seq<DocObject>, row: Row): Layer
    requires Keeps(mats, row)
  {
    Layer(row.name, Resolve(mats, row.material).value, Rounded(row.thickness))
  }

  /** The rows `accept` keeps, in table order. */
  function KeptRows(mats: seq<DocObject>, rows: seq<Row>): (kept: seq<Row>)
    ensures Subsequence(kept, rows)
    ensures forall i :: 0 <= i < |kept| ==> Keeps(mats, kept[i])
    ensures forall row :: multiset(kept)[row] == (if Keeps(mats, row) then multiset(rows)[row] else 0)
    decreases |rows|
  {
    if |rows| == 0 then []
    else
      var rest := KeptRows(mats, rows[1..]);
      KeptRowsStep(mats, rows, rest);
      if Keeps(mats, rows[0]) then [rows[0]] + rest else rest
  }

  /** One more row in front: it is kept exactly when `accept` keeps it. */
  lemma KeptRowsStep(mats: seq<DocObject>, rows: seq<Row>, rest: seq<Row>)
    requires |rows| > 0
    requires Subsequence(rest, rows[1..])
    requires forall i :: 0 <= i < |rest| ==> Keeps(mats, rest[i])
    requires forall row :: multiset(rest)[row] == (if Keeps(mats, row) then multiset(rows[1..])[row] else 0)
    ensures var kept := if Keeps(mats, rows[0]) then [rows[0]] + rest else rest;
            && Subsequence(kept, rows)
            && (forall i :: 0 <= i < |kept| ==> Keeps(mats, kept[i]))
            && forall row :: multiset(kept)[row] == (if Keeps(mats, row) then multiset(rows)[row] else 0)
  {
    assert rows == [rows[0]] + rows[1..];
    if Keeps(mats, rows[0]) {
      assert ([rows[0]] + rest)[1..] == rest;
    } else {
      assert |rest| > 0 ==> Keeps(mats, rest[0]) && rest[0] != rows[0];
    }
  }

  /** The layers `accept` collects: one per kept row, in row order (the loop
      appends them row by row, which builds the same list). */
  function KeptLayers(mats: seq<DocObject>, rows: seq<Row>): (r: seq<Layer>)
    ensures |r| <= |rows|
    ensures forall l :: l in r <==>
              exists i :: 0 <= i < |rows| && Keeps(mats, rows[i]) && l == LayerOf(mats, rows[i])
    ensures (forall i :: 0 <= i < |rows| ==> Keeps(mats, rows[i])) ==> |r| == |rows|
    ensures |r| == |KeptRows(mats, rows)|
    ensures forall t :: 0 <= t < |r| ==> r[t] == LayerOf(mats, KeptRows(mats, rows)[t])
    decreases |rows|
  {
    if |rows| == 0 then []
    else
      var rest := KeptLayers(mats, rows[1..]);
      KeptLayersStepMembers(mats, rows, rest);
      KeptLayersStepOrder(mats, rows, rest);
      if Keeps(mats, rows[0]) then [LayerOf(mats, rows[0])] + rest else rest
  }

  /** One more row in front keeps the layers exactly those of the kept rows. */
  lemma KeptLayersStepMembers(mats: seq<DocObject>, rows: seq<Row>, rest: seq<Layer>)
    requires |rows| > 0 && |rest| <= |rows| - 1
    requires forall l :: l in rest <==>
               exists i :: 0 <= i < |rows| - 1 && Keeps(mats, rows[1..][i]) && l == LayerOf(mats, rows[1..][i])
    requires (forall i :: 0 <= i < |rows| - 1 ==> Keeps(mats, rows[1..][i])) ==> |rest| == |rows| - 1
    ensures var r := if Keeps(mats, rows[0]) then [LayerOf(mats, rows[0])] + rest else rest;
            && |r| <= |rows|
            && (forall l :: l in r <==>
                  exists i :: 0 <= i < |rows| && Keeps(mats, rows[i]) && l == LayerOf(mats, rows[i]))
            && ((forall i :: 0 <= i < |rows| ==> Keeps(mats, rows[i])) ==> |r| == |rows|)
  {
    assert forall i :: 0 <= i < |rows| - 1 ==> rows[1..][i] == rows[i + 1];
  }

  /** One more row in front keeps the layers in the order of the kept rows. */
  lemma KeptLayersStepOrder(mats: seq<DocObject>, rows: seq<Row>, rest: seq<Layer>)
    requires |rows| > 0
    requires |rest| == |KeptRows(mats, rows[1..])|
    requires forall t :: 0 <= t < |rest| ==> rest[t] == LayerOf(mats, KeptRows(mats, rows[1..])[t])
    ensures var r := if Keeps(mats, rows[0]) then [LayerOf(mats, rows[0])] + rest else rest;
            && |r| == |KeptRows(mats, rows)|
            && forall t :: 0 <= t < |r| ==> r[t] == LayerOf(mats, KeptRows(mats, rows)[t])
  {
  }

  /** `accept` on the multi-material panel: the object (if the panel has one)
      gets the kept layers as three equal-length lists, and its label becomes
      the name field when that is not empty. */
  function Accept(obj: Option<MultiMaterial>, panel: LayerPanel, doc: seq<DocObject>): (r: Option<MultiMaterial>)
    ensures obj.None? <==> r.None?
    ensures r.Some? ==> |r.value.names| == |r.value.materials| == |r.value.thicknesses|
    ensures r.Some? ==> var layers := KeptLayers(MaterialObjects(doc), panel.rows);
              |r.value.names| == |layers|
              && forall i :: 0 <= i < |layers| ==>
                   Layer(r.value.names[i], r.value.materials[i], r.value.thicknesses[i]) == layers[i]
    ensures r.Some? ==> r.value.caption == (if panel.nameField != "" then panel.nameField else obj.value.caption)
  {
    if obj.None? then None
    else
      var caption := if panel.nameField != "" then panel.nameField else obj.value.caption;
      Some(WriteLayers(caption, KeptLayers(MaterialObjects(doc), panel.rows)))
  }

  /** The object as `accept` leaves it: the layers split into three parallel lists. */
  function WriteLayers(caption: string, layers: seq<Layer>): (m: MultiMaterial)
    ensures m.caption == caption
    ensures |m.names| == |m.materials| == |m.thicknesses| == |layers|
    ensures forall i :: 0 <= i < |layers| ==> Layer(m.names[i], m.materials[i], m.thicknesses[i]) == layers[i]
  {
    MultiMaterial(
      caption,
      seq(|layers|, i requires 0 <= i < |layers| => layers[i].name),
      seq(|layers|, i requires 0 <= i < |layers| => layers[i].material),
      seq(|layers|, i requires 0 <= i < |layers| => layers[i].thickness))
  }

  /** The three lists line up, as `fillData` indexes them together. */
  predicate WellFormed(m: MultiMaterial) {
    |m.materials| == |m.names| && |m.thicknesses| == |m.names|
  }

  /** `fillData`: one row per layer, showing its material's label, and the
      object's label in the name field. */
  function FillData(m: MultiMaterial): (p: LayerPanel)
    requires WellFormed(m)
    ensures |p.rows| == |m.names| && p.nameField == m.caption
    ensures forall i :: 0 <= i < |p.rows| ==>
              p.rows[i] == Row(m.names[i], m.materials[i].caption, m.thicknesses[i])
  {
    LayerPanel(seq(|m.names|, i requires 0 <= i < |m.names| => Row(m.names[i], m.materials[i].caption, m.thicknesses[i])),
               m.caption)
  }

  /** `fromExisting(k)` on the multi-material panel: entry 0 of the combo box
      is the blank choice, so `k` picks `existing[k-1]`. */
  function FromExisting(panel: LayerPanel, existing: seq<MultiMaterial>, k: int): (r: LayerPanel)
    requires 0 < k <= |existing| ==> WellFormed(existing[k - 1])
    ensures k <= 0 || k > |existing| ==> r == panel
    ensures 0 < k <= |existing| ==> r == FillData(existing[k - 1])
  {
    if 0 < k <= |existing| then FillData(existing[k - 1]) else panel
  }

  /** Loading a multi-material into the panel and accepting it unchanged
      writes back the same layers, provided every layer has a name, no
      thickness is so small that rounding zeroes it, and every material is a
      document material whose label no other one shares. */
  lemma FillThenAcceptRoundTrip(obj: MultiMaterial, m: MultiMaterial, doc: seq<DocObject>)
    requires WellFormed(m) && m.caption != ""
    requires forall i :: 0 <= i < |m.names| ==> m.names[i] != ""
    requires forall i :: 0 <= i < |m.thicknesses| ==> Rounded(m.thicknesses[i]) == m.thicknesses[i]
    requires forall i :: 0 <= i < |m.materials| ==> m.materials[i] in doc && m.materials[i].isMaterialObject
    requires forall i, d :: (0 <= i < |m.materials| && d in doc && d.isMaterialObject
                             && d.caption == m.materials[i].caption) ==> d == m.materials[i]
    ensures Accept(Some(obj), FillData(m), doc) == Some(m)
  {
    FilledRowsKept(m, doc);
    FilledLayersKept(m, MaterialObjects(doc));
    WriteLayersOfOwnLayers(m, KeptLayers(MaterialObjects(doc), FillData(m).rows));
  }

  /** When every shown row is kept and resolves to its layer's material,
      the collected layers are the multi-material's own. */
  lemma FilledLayersKept(m: MultiMaterial, mats: seq<DocObject>)
    requires WellFormed(m)
    requires forall i :: 0 <= i < |m.thicknesses| ==> Rounded(m.thicknesses[i]) == m.thicknesses[i]
    requires forall i :: 0 <= i < |FillData(m).rows| ==>
               Keeps(mats, FillData(m).rows[i]) && Resolve(mats, FillData(m).rows[i].material) == Some(m.materials[i])
    ensures var layers := KeptLayers(mats, FillData(m).rows);
            |layers| == |m.names|
            && forall i :: 0 <= i < |layers| ==> layers[i] == Layer(m.names[i], m.materials[i], m.thicknesses[i])
  {
    KeptRowsAllKept(mats, FillData(m).rows);
  }

  /** Writing back a multi-material's own layers gives the multi-material. */
  lemma WriteLayersOfOwnLayers(m: MultiMaterial, layers: seq<Layer>)
    requires WellFormed(m) && |layers| == |m.names|
    requires forall i :: 0 <= i < |layers| ==> layers[i] == Layer(m.names[i], m.materials[i], m.thicknesses[i])
    ensures WriteLayers(m.caption, layers) == m
  {
    var r := WriteLayers(m.caption, layers);
    assert r.names == m.names;
    assert r.materials == m.materials;
    assert r.thicknesses == m.thicknesses;
  }

  /** Every row `fillData` shows for such a multi-material is kept, and its
      label resolves back to the layer's material. */
  lemma FilledRowsKept(m: MultiMaterial, doc: seq<DocObject>)
    requires WellFormed(m)
    requires forall i :: 0 <= i < |m.names| ==> m.names[i] != ""
    requires forall i :: 0 <= i < |m.materials| ==> m.materials[i] in doc && m.materials[i].isMaterialObject
    requires forall i, d :: (0 <= i < |m.materials| && d in doc && d.isMaterialObject
                             && d.caption == m.materials[i].caption) ==> d == m.materials[i]
    ensures forall i :: 0 <= i < |FillData(m).rows| ==>
              Keeps(MaterialObjects(doc), FillData(m).rows[i])
              && Resolve(MaterialObjects(doc), FillData(m).rows[i].material) == Some(m.materials[i])
  {
    forall i | 0 <= i < |FillData(m).rows|
      ensures Keeps(MaterialObjects(doc), FillData(m).rows[i])
              && Resolve(MaterialObjects(doc), FillData(m).rows[i].material) == Some(m.materials[i])
    {
      ResolveUnique(doc, m.materials[i]);
    }
  }

  /** A document material whose label no other material shares is what its label resolves to. */
  lemma ResolveUnique(doc: seq<DocObject>, x: DocObject)
    requires x in doc && x.isMaterialObject
    requires forall d :: d in doc && d.isMaterialObject && d.caption == x.caption ==> d == x
    ensures Resolve(MaterialObjects(doc), x.caption) == Some(x)
  {
    var mats := MaterialObjects(doc);
    assert x in mats;
    var j :| 0 <= j < |mats| && mats[j] == x;
    assert mats[j].caption == x.caption;
  }

  /** When every row qualifies, `accept` keeps the whole table. */
  lemma {:induction false} KeptRowsAllKept(mats: seq<DocObject>, rows: seq<Row>)
    requires forall i :: 0 <= i < |rows| ==> Keeps(mats, rows[i])
    ensures KeptRows(mats, rows) == rows
    decreases |rows|
  {
    if |rows| > 0 {
      assert Keeps(mats, rows[0]);
      KeptRowsAllKept(mats, rows[1..]);
      assert rows == [rows[0]] + rows[1..];
    }
  }

  // ---------------------------------------------------------------------------
  // The material panel and the material tree
  // ---------------------------------------------------------------------------

  /** `fromExisting(k)` on the material panel: take the dictionary of
      `existing[k-1]` when it is not empty. */
  function MaterialFromExisting(material: map<string, string>, existing: seq<DocObject>, k: int): (r: map<string, string>)
    ensures k <= 0 || k > |existing| ==> r == material
    ensures 0 < k <= |existing| && |existing[k - 1].material| > 0 ==> r == existing[k - 1].material
    ensures 0 < k <= |existing| && |existing[k - 1].material| == 0 ==> r == material
  {
    if 0 < k <= |existing| && |existing[k - 1].material| > 0 then existing[k - 1].material else material
  }

  /** `setFather(text)`: "None" removes the parent, other text sets it, an empty text does nothing. */
  function SetFather(material: map<string, string>, text: string): (r: map<string, string>)
    ensures text == "" ==> r == material
    ensures text == "None" ==> "Father" !in r
    ensures text != "" && text != "None" ==> "Father" in r && r["Father"] == text
    ensures forall k :: k != "Father" ==> (k in r <==> k in material) && (k in r ==> r[k] == material[k])
  {
    if text == "" then material
    else if text == "None" then material - {"Father"}
    else material["Father" := text]
  }

  /** The material objects whose `Father` is `label`. */
  predicate ChildOf(o: DocObject, caption: string) {
    o.isMaterialObject && |o.material| > 0 && "Father" in o.material && o.material["Father"] == caption
  }

  /** `claimChildren` of a material's view provider, in document order; a
      view provider not yet attached to an object claims nothing. */
  function ClaimChildren(obj: Option<DocObject>, doc: seq<DocObject>): (r: seq<DocObject>)
    ensures obj.None? ==> r == []
    ensures obj.Some? ==> forall o :: o in r <==> o in doc && ChildOf(o, obj.value.caption)
    ensures Subsequence(r, doc)
    ensures obj.Some? ==> forall o :: multiset(r)[o] == (if ChildOf(o, obj.value.caption) then multiset(doc)[o] else 0)
    decreases |doc|
  {
    if obj.None? || |doc| == 0 then []
    else
      var rest := ClaimChildren(obj, doc[1..]);
      assert doc == [doc[0]] + doc[1..];
      if ChildOf(doc[0], obj.value.caption) then
        assert ([doc[0]] + rest)[1..] == rest;
        [doc[0]] + rest
      else
        assert |rest| > 0 ==> rest[0] in rest && rest[0] != doc[0];
        rest
  }

  /** Choosing a parent in the material panel makes the material a child of
      every object with that label; choosing "None" makes it nobody's child.
      The new dictionary is put straight into the document: the rest of the
      panel's `accept` (writing back `Material` and the label change) is left aside. */
  lemma SetFatherThenClaim(doc: seq<DocObject>, i: nat, parent: DocObject, text: string)
    requires i < |doc| && doc[i].isMaterialObject
    ensures var child := doc[i].(material := SetFather(doc[i].material, text));
            var doc' := doc[i := child];
            (text != "" && text != "None" && text == parent.caption ==> child in ClaimChildren(Some(parent), doc'))
            && (text == "None" ==> child !in ClaimChildren(Some(parent), doc'))
  {
    var child := doc[i].(material := SetFather(doc[i].material, text));
    var doc' := doc[i := child];
    assert doc'[i] == child;
    assert child in doc';
  }
}

=== FILE: datum_label.dfy ===
/**
 * Integer and range helpers of the Coin3D node `SoDatumLabel`
 * (src/Gui/SoDatumLabel.cpp): the power-of-two texture size used when the
 * graphics driver lacks non-power-of-two textures, the bounding box over a
 * corner list, the point-count guards per datum type, the label-text centre
 * fallback, the range reduction of the label angle, the arc segment count and
 * the "image valid" cache flag.
 *
 * Coordinates are mathematical reals; the trigonometric placement of corners
 * and text centres is a caller-supplied function.
 */
module DatumLabel {

  // ---------------------------------------------------------------------------
  // Powers of two and the C++ bit test
  // ---------------------------------------------------------------------------

  /** `1 << i`. */
  function Pow2(i: nat): (r: nat)
    ensures r >= 1
  {
    if i == 0 then 1 else 2 * Pow2(i - 1)
  }

  predicate IsPowerOfTwo(n: nat)
  {
    n == 1 || (n > 1 && n % 2 == 0 && IsPowerOfTwo(n / 2))
  }

  /** `a & b` on non-negative integers. */
  function BitAnd(a: nat, b: nat): nat
  {
    if a == 0 || b == 0 then 0
    else 2 * BitAnd(a / 2, b / 2) + (if a % 2 == 1 && b % 2 == 1 then 1 else 0)
  }

  /** The test `(w & (w-1)) == 0` of `drawText`; for `w == 0`, `w-1` is all ones. */
  predicate PassesPowerOfTwoTest(w: nat)
  {
    w == 0 || BitAnd(w, w - 1) == 0
  }

  lemma {:induction false} BitAndSelf(a: nat)
    ensures BitAnd(a, a) == a
  {
    if a > 0 {
      BitAndSelf(a / 2);
    }
  }

  /** The bit test accepts exactly zero and the powers of two. */
  lemma {:induction false} PowerOfTwoTestCorrect(w: nat)
    ensures PassesPowerOfTwoTest(w) <==> w == 0 || IsPowerOfTwo(w)
  {
    if w >= 2 {
      var m := w / 2;
      if w % 2 == 0 {
        assert (w - 1) / 2 == m - 1 && (w - 1) % 2 == 1;
        PowerOfTwoTestCorrect(m);
        assert BitAnd(w, w - 1) == 2 * BitAnd(m, m - 1);
      } else {
        assert (w - 1) / 2 == m && (w - 1) % 2 == 0;
        BitAndSelf(m);
        assert BitAnd(w, w - 1) == 2 * m;
      }
    }
  }

  lemma {:induction false} Pow2Grows(i: nat, j: nat)
    requires i <= j
    ensures Pow2(i) <= Pow2(j)
  {
    if i < j {
      Pow2Grows(i, j - 1);
    }
  }

  lemma {:induction false} Pow2IsPowerOfTwo(i: nat)
    ensures IsPowerOfTwo(Pow2(i))
  {
    if i > 0 {
      Pow2IsPowerOfTwo(i - 1);
      assert Pow2(i) / 2 == Pow2(i - 1);
    }
  }

  /** `w >> i == 0` exactly when `w < 2^i`. */
  lemma DivZeroIff(w: nat, p: nat)
    requires p >= 1
    ensures w / p == 0 <==> w < p
  {
    if w >= p {
      assert w / p >= 1 by {
        assert w == p * (w / p) + w % p;
        assert w % p < p;
      }
    }
  }

  // ---------------------------------------------------------------------------
  // Texture sizes
  // ---------------------------------------------------------------------------

  /** The shift loop of `drawText`: the first `j` in `i..7` with `(w >> i) == 0`, or 8. */
  function ShiftSearch(w: nat, i: nat): (r: nat)
    requires 1 <= i <= 8
    decreases 8 - i
  {
    DivZeroIff(w, Pow2(i));
    if i < 8 && w / Pow2(i) != 0 then ShiftSearch(w, i + 1) else i
  }

  lemma {:induction false} ShiftSearchBounds(w: nat, i: nat)
    requires 1 <= i <= 8 && Pow2(i - 1) <= w
    ensures i <= ShiftSearch(w, i) <= 8
    ensures Pow2(ShiftSearch(w, i) - 1) <= w
    ensures ShiftSearch(w, i) < 8 ==> w < Pow2(ShiftSearch(w, i))
    decreases 8 - i
  {
    DivZeroIff(w, Pow2(i));
    if i < 8 && w / Pow2(i) != 0 {
      ShiftSearchBounds(w, i + 1);
    }
  }

  /** One side of the texture as `drawText` sizes it. */
  function TextureSizeAsWritten(w: nat): nat
  {
    if PassesPowerOfTwoTest(w) then w else Pow2(ShiftSearch(w, 1))
  }

  /** An image side that is zero or a power of two is kept; any other side
      becomes a power of two between 2 and 256: the smallest one above it when
      it is below 256, and 256 itself, which is too small, otherwise. */
  lemma TextureSizeAsWrittenBounds(w: nat)
    ensures w == 0 || IsPowerOfTwo(w) ==> TextureSizeAsWritten(w) == w
    ensures !(w == 0 || IsPowerOfTwo(w)) ==>
              && IsPowerOfTwo(TextureSizeAsWritten(w))
              && 2 <= TextureSizeAsWritten(w) <= 256
              && (w < 256 ==> TextureSizeAsWritten(w) / 2 < w < TextureSizeAsWritten(w))
              && (w > 256 ==> TextureSizeAsWritten(w) == 256)
  {
    PowerOfTwoTestCorrect(w);
    if !(w == 0 || IsPowerOfTwo(w)) {
      ShiftSearchBounds(w, 1);
      var i := ShiftSearch(w, 1);
      Pow2IsPowerOfTwo(i);
      Pow2IsPowerOfTwo(i - 1);
      Pow2Grows(i, 8);
      Pow2Grows(1, i);
      assert Pow2(8) == 256;
      if w < 256 {
        if i == 8 {
          assert w < Pow2(i);
        }
        assert Pow2(i) / 2 == Pow2(i - 1);
        assert Pow2(i - 1) != w;
      }
    }
  }

  /** A 300-pixel-wide label gets a 256-pixel texture: the image no longer fits. */
  lemma CappedTextureTooSmall()
    ensures !PassesPowerOfTwoTest(300)
    ensures TextureSizeAsWritten(300) == 256 < 300
  {
    PowerOfTwoTestCorrect(300);
    assert !IsPowerOfTwo(75);
    assert Pow2(8) == 256;
    TextureSizeAsWrittenBounds(300);
  }

  /** The smallest `j >= i` with `(w >> i) == 0`, without a cap. */
  function ShiftSearchUncapped(w: nat, i: nat): (r: nat)
    requires i >= 1
    decreases w + 1 - Pow2(i)
  {
    DivZeroIff(w, Pow2(i));
    if w / Pow2(i) != 0 then ShiftSearchUncapped(w, i + 1) else i
  }

  lemma {:induction false} ShiftSearchUncappedBounds(w: nat, i: nat)
    requires i >= 1 && Pow2(i - 1) <= w
    ensures ShiftSearchUncapped(w, i) >= i
    ensures Pow2(ShiftSearchUncapped(w, i) - 1) <= w < Pow2(ShiftSearchUncapped(w, i))
    decreases w + 1 - Pow2(i)
  {
    DivZeroIff(w, Pow2(i));
    if w / Pow2(i) != 0 {
      ShiftSearchUncappedBounds(w, i + 1);
    }
  }

  /** One side of the texture, padded to the next power of two with no cap. */
  function TextureSize(w: nat): nat
  {
    if PassesPowerOfTwoTest(w) then w else Pow2(ShiftSearchUncapped(w, 1))
  }

  /** The padded side is a power of two that holds the image, and no smaller
      power of two would. */
  lemma TextureSizeFits(w: nat)
    ensures w == 0 || IsPowerOfTwo(w) ==> TextureSize(w) == w
    ensures !(w == 0 || IsPowerOfTwo(w)) ==>
              IsPowerOfTwo(TextureSize(w)) && TextureSize(w) / 2 < w < TextureSize(w)
  {
    PowerOfTwoTestCorrect(w);
    if !(w == 0 || IsPowerOfTwo(w)) {
      ShiftSearchUncappedBounds(w, 1);
      var i := ShiftSearchUncapped(w, 1);
      Pow2IsPowerOfTwo(i);
      assert Pow2(i) / 2 == Pow2(i - 1);
      Pow2IsPowerOfTwo(i - 1);
    }
  }

  /** Texture width and height: each side is padded on its own, and only
      when the driver lacks non-power-of-two textures. */
  function TextureDims(srcw: nat, srch: nat, npot: bool): (r: (nat, nat))
    ensures npot ==> r == (srcw, srch)
    ensures !npot ==> r.0 >= srcw && r.1 >= srch
    ensures !npot ==> (r.0 == 0 || IsPowerOfTwo(r.0)) && (r.1 == 0 || IsPowerOfTwo(r.1))
  {
    TextureSizeFits(srcw);
    TextureSizeFits(srch);
    if npot then (srcw, srch) else (TextureSize(srcw), TextureSize(srch))
  }

  // ---------------------------------------------------------------------------
  // Bounding boxes
  // ---------------------------------------------------------------------------

  datatype Vec3 = Vec3(x: real, y: real, z: real)

  const Zero: Vec3 := Vec3(0.0, 0.0, 0.0)

  datatype Box3 = Box3(lo: Vec3, hi: Vec3)

  /** `SbBox3f::getCenter`. */
  function Center(b: Box3): Vec3 {
    Vec3((b.lo.x + b.hi.x) / 2.0, (b.lo.y + b.hi.y) / 2.0, (b.lo.z + b.hi.z) / 2.0)
  }

  /** `std::numeric_limits<float>::max()`. */
  const FloatMax: real := 340282346638528859811704183484516925440.0

  /** A finite single-precision x and y. */
  predicate InFloatRange(v: Vec3) {
    -FloatMax <= v.x <= FloatMax && -FloatMax <= v.y <= FloatMax
  }

  /** The box encloses every corner and each of its four bounds is some corner's coordinate. */
  predicate TightXYBox(corners: seq<Vec3>, b: Box3) {
    && b.lo.z == 0.0 && b.hi.z == 0.0
    && (forall i :: 0 <= i < |corners| ==>
          b.lo.x <= corners[i].x <= b.hi.x && b.lo.y <= corners[i].y <= b.hi.y)
    && (exists i :: 0 <= i < |corners| && corners[i].x == b.lo.x)
    && (exists i :: 0 <= i < |corners| && corners[i].y == b.lo.y)
    && (exists i :: 0 <= i < |corners| && corners[i].x == b.hi.x)
    && (exists i :: 0 <= i < |corners| && corners[i].y == b.hi.y)
  }

  /** `DatumLabelBox::getBBox`: with more than one corner, the tight x/y box
      at z = 0 and its centre; otherwise box and centre are left as they were. */
  method GetBBox(corners: seq<Vec3>, box: Box3, center: Vec3) returns (box': Box3, center': Vec3)
    requires forall i :: 0 <= i < |corners| ==> InFloatRange(corners[i])
    ensures |corners| <= 1 ==> box' == box && center' == center
    ensures |corners| > 1 ==> TightXYBox(corners, box') && center' == Center(box')
  {
    if |corners| <= 1 {
      return box, center;
    }
    var minX, minY, maxX, maxY := FloatMax, FloatMax, -FloatMax, -FloatMax;
    ghost var iMinX, iMinY, iMaxX, iMaxY := 0, 0, 0, 0;
    for k := 0 to |corners|
      invariant forall i :: 0 <= i < k ==>
                  minX <= corners[i].x <= maxX && minY <= corners[i].y <= maxY
      invariant k == 0 ==> minX == FloatMax && minY == FloatMax && maxX == -FloatMax && maxY == -FloatMax
      invariant k > 0 ==> 0 <= iMinX < k && corners[iMinX].x == minX
      invariant k > 0 ==> 0 <= iMinY < k && corners[iMinY].y == minY
      invariant k > 0 ==> 0 <= iMaxX < k && corners[iMaxX].x == maxX
      invariant k > 0 ==> 0 <= iMaxY < k && corners[iMaxY].y == maxY
    {
      var c := corners[k];
      if c.x < minX || k == 0 { iMinX := k; }
      if c.y < minY || k == 0 { iMinY := k; }
      if c.x > maxX || k == 0 { iMaxX := k; }
      if c.y > maxY || k == 0 { iMaxY := k; }
      minX := if c.x < minX then c.x else minX;
      minY := if c.y < minY then c.y else minY;
      maxX := if c.x > maxX then c.x else maxX;
      maxY := if c.y > maxY then c.y else maxY;
    }
    box' := Box3(Vec3(minX, minY, 0.0), Vec3(maxX, maxY, 0.0));
    center' := Center(box');
  }

  datatype DatumType = Distance | DistanceX | DistanceY | Angle | Radius | Diameter | Symmetric | ArcLength

  /** The number of points below which a datum type yields no corners. */
  function MinPoints(t: DatumType): nat {
    match t
    case Angle => 1
    case ArcLength => 3
    case _ => 2
  }

  /** The `k`-th corner the trigonometric placement computes for a datum type from its points. */
  type Placement = (DatumType, seq<Vec3>, nat) -> Vec3

  /** The corner lists of the `compute*BBox` functions: empty when the label
      has too few points; the symmetric label's corners are its two points,
      a distance label's first two corners are its points, a radius or
      diameter label's first corner is its first point. */
  function Corners(t: DatumType, pts: seq<Vec3>, place: Placement): (r: seq<Vec3>)
    ensures |pts| < MinPoints(t) <==> |r| == 0
    ensures |pts| >= MinPoints(t) ==> |r| >= 2
    ensures t == Symmetric && |pts| >= 2 ==> r == [pts[0], pts[1]]
    ensures t in {Distance, DistanceX, DistanceY} && |pts| >= 2 ==> r[0] == pts[0] && r[1] == pts[1]
    ensures t in {Radius, Diameter} && |pts| >= 2 ==> r[0] == pts[0]
  {
    if |pts| < MinPoints(t) then []
    else
      match t
      case Distance | DistanceX | DistanceY =>
        [pts[0], pts[1]] + seq(6, k requires 0 <= k => place(t, pts, k))
      case Radius | Diameter =>
        [pts[0]] + seq(3, k requires 0 <= k => place(t, pts, k))
      case Angle => seq(8, k requires 0 <= k => place(t, pts, k))
      case Symmetric => [pts[0], pts[1]]
      case ArcLength => seq(4, k requires 0 <= k => place(t, pts, k))
  }

  /** `DatumLabelBox::computeBBox`: a label with enough points for its type
      gets the tight box of its corners; one with too few keeps the old box. */
  method ComputeBBox(t: DatumType, pts: seq<Vec3>, place: Placement, box: Box3, center: Vec3)
    returns (box': Box3, center': Vec3)
    requires forall c :: c in Corners(t, pts, place) ==> InFloatRange(c)
    ensures |pts| < MinPoints(t) ==> box' == box && center' == center
    ensures |pts| >= MinPoints(t) ==> TightXYBox(Corners(t, pts, place), box') && center' == Center(box')
  {
    var corners := Corners(t, pts, place);
    box', center' := GetBBox(corners, box, center);
  }

  // ---------------------------------------------------------------------------
  // Label text centre
  // ---------------------------------------------------------------------------

  /** The per-type text-centre computations, which are trigonometric. */
  datatype TextPlacement = TextPlacement(
    distance: (Vec3, Vec3) -> Vec3,
    diameter: (Vec3, Vec3) -> Vec3,
    angle: Vec3 -> Vec3,
    arcLength: (Vec3, Vec3, Vec3) -> Vec3)

  /** `getLabelTextCenter`. */
  function LabelTextCenter(t: DatumType, pts: seq<Vec3>, tp: TextPlacement): (r: Vec3)
    ensures |pts| < 2 ==> r == Zero
    ensures |pts| >= 2 && (t == Symmetric || (t == ArcLength && |pts| < 3)) ==> r == pts[0]
    ensures |pts| >= 2 && (t == Distance || t == DistanceX || t == DistanceY) ==> r == tp.distance(pts[0], pts[1])
    ensures |pts| >= 2 && (t == Radius || t == Diameter) ==> r == tp.diameter(pts[0], pts[1])
    ensures |pts| >= 2 && t == Angle ==> r == tp.angle(pts[0])
    ensures |pts| >= 3 && t == ArcLength ==> r == tp.arcLength(pts[0], pts[1], pts[2])
  {
    if |pts| < 2 then Zero
    else
      var p1, p2 := pts[0], pts[1];
      match t
      case Distance | DistanceX | DistanceY => tp.distance(p1, p2)
      case Radius | Diameter => tp.diameter(p1, p2)
      case Angle => tp.angle(p1)
      case ArcLength => if |pts| >= 3 then tp.arcLength(p1, p2, pts[2]) else p1
      case Symmetric => p1
  }

  /** The text centre depends on the first three points only, and an angle
      label, whose bounding box needs one point, gets the zero centre until it
      has two. */
  lemma LabelTextCenterUsesLeadingPoints(t: DatumType, pts: seq<Vec3>, more: seq<Vec3>, tp: TextPlacement)
    requires |pts| >= 3
    ensures LabelTextCenter(t, pts + more, tp) == LabelTextCenter(t, pts, tp)
    ensures LabelTextCenter(Angle, pts[..1], tp) == Zero && |Corners(Angle, pts[..1], (t, p, k) => Zero)| == 8
  {
  }

  // ---------------------------------------------------------------------------
  // Label angle and arc segments
  // ---------------------------------------------------------------------------

  /** `std::numbers::pi`, as the double constant. */
  const Pi: real := 3.141592653589793

  /** The angle adjustment of `drawDistance`, `drawRadiusOrDiameter` and
      `drawArcLength`: keep the text upright by turning it half a turn when it
      points too far left. */
  function NormalizeLabelAngle(a: real): (r: real)
    ensures -Pi <= a <= Pi ==> -5.0 * Pi / 12.0 < r <= 7.0 * Pi / 12.0
    ensures r == a || r == a - Pi || r == a + Pi
    ensures -5.0 * Pi / 12.0 < a <= 7.0 * Pi / 12.0 ==> r == a
  {
    if a > Pi / 2.0 + Pi / 12.0 then a - Pi
    else if a <= -Pi / 2.0 + Pi / 12.0 then a + Pi
    else a
  }

  /** Adjusting an already adjusted angle of `atan2`'s range changes nothing. */
  lemma NormalizeLabelAngleIdempotent(a: real)
    requires -Pi <= a <= Pi
    ensures NormalizeLabelAngle(NormalizeLabelAngle(a)) == NormalizeLabelAngle(a)
  {
  }

  function Abs(x: real): real { if x < 0.0 then -x else x }

  /** C++ `abs(int(x))`: the magnitude of `x` truncated toward zero. */
  function AbsTrunc(x: real): (r: int)
    ensures r >= 0 && r as real <= Abs(x) < r as real + 1.0
  {
    Abs(x).Floor
  }

  /** The segment count of `glDrawArc`: a given non-zero count is used as is;
      zero means 25 segments per half turn of the range, but at least 6. */
  function ArcSegments(range: real, countSegments: int): (r: int)
    ensures countSegments != 0 ==> r == countSegments
    ensures countSegments == 0 ==> r >= 6
    ensures countSegments == 0 ==> (r > 6 <==> Abs(25.0 * range / Pi) >= 7.0)
    ensures countSegments == 0 && r > 6 ==> r as real <= Abs(25.0 * range / Pi) < r as real + 1.0
  {
    if countSegments == 0 then
      var n := AbsTrunc(25.0 * range / Pi);
      if n > 6 then n else 6
    else countSegments
  }

  // ---------------------------------------------------------------------------
  // The image cache flag
  // ---------------------------------------------------------------------------

  datatype Field =
    | StringField | TextColor | Pnts | Norm | Name | Size | LineWidth | Sampling
    | DatumTypeField | Param(n: nat) | Image

  /** The fields whose change invalidates the rendered text image. */
  predicate AffectsImage(f: Field) {
    f.StringField? || f.TextColor? || f.Name? || f.Size? || f.Image?
  }

  /** The flag's value after construction. */
  const InitialImageValid: bool := false

  /** `notify`: a change to a text field clears the flag; others keep it. */
  function Notify(valid: bool, f: Field): (r: bool)
    ensures AffectsImage(f) ==> !r
    ensures !AffectsImage(f) ==> r == valid
  {
    if AffectsImage(f) then false else valid
  }

  /** The flag after a run of field changes. */
  function NotifyAll(valid: bool, fs: seq<Field>): bool
    decreases |fs|
  {
    if |fs| == 0 then valid else NotifyAll(Notify(valid, fs[0]), fs[1..])
  }

  /** What `getDimension` does with the flag: whether it redraws the image, and the flag after. */
  datatype Dimension = Dimension(redrawn: bool, valid: bool)

  /** `getDimension`: redraw only an invalid image; the image is valid afterwards. */
  function GetDimension(valid: bool): (d: Dimension)
    ensures d.valid
    ensures d.redrawn <==> !valid
  {
    Dimension(!valid, true)
  }

  /** Once drawn, the image stays valid exactly as long as no text field changes. */
  lemma {:induction false} ImageValidUntilTextChanges(valid: bool, fs: seq<Field>)
    ensures NotifyAll(valid, fs) <==> valid && forall i :: 0 <= i < |fs| ==> !AffectsImage(fs[i])
    decreases |fs|
  {
    if |fs| > 0 {
      ImageValidUntilTextChanges(Notify(valid, fs[0]), fs[1..]);
      assert forall i :: 1 <= i < |fs| ==> fs[i] == fs[1..][i - 1];
    }
  }

  /** The first `getDimension` draws; after that, it redraws exactly when a
      text field has changed since the last draw. */
  lemma RedrawExactlyAfterTextChange(fs: seq<Field>)
    ensures GetDimension(InitialImageValid).redrawn
    ensures GetDimension(NotifyAll(GetDimension(InitialImageValid).valid, fs)).redrawn
            <==> exists i :: 0 <= i < |fs| && AffectsImage(fs[i])
  {
    ImageValidUntilTextChanges(true, fs);
  }
}

=== FILE: icon_view_provider.dfy ===
/**
 * The generic CAM view provider of src/Mod/CAM/Path/Base/Gui/IconViewProvider.py:
 * its icon path, its saved state, its edit callback, and the registry of
 * custom providers that `Attach` consults.
 *
 * The edit callback is looked up dynamically by module and function name;
 * here it is the effect the provider asks for, not the call itself.
 */
module IconViewProvider {
  import opened Wrappers

  /** The Python values the provider's attributes take: `None` or a string. */
  datatype PyValue = PyNone | PyStr(s: string)

  /** Python truthiness: `None` and the empty string are false. */
  predicate Truthy(v: PyValue) {
    v.PyStr? && |v.s| > 0
  }

  /** `str(v)` as `format` renders it. */
  function Str(v: PyValue): string {
    match v
    case PyNone => "None"
    case PyStr(s) => s
  }

  /** A provider: its icon and its two edit attributes, each of which it may
      lack altogether. A provider restored from a file has them only when
      `loads` set them, and a `loads` that raises can leave one without the other. */
  datatype Provider = Provider(icon: PyValue, editModule: Option<PyValue>, editCallback: Option<PyValue>)

  /** `ViewProvider(vobj, icon)`: a fresh provider has both edit attributes, set to `None`. */
  function NewProvider(icon: PyValue): (p: Provider)
    ensures p.icon == icon && p.editModule == Some(PyNone) && p.editCallback == Some(PyNone)
  {
    Provider(icon, Some(PyNone), Some(PyNone))
  }

  /** The provider as a restored document rebuilds it before `loads`: no edit
      attributes, and an icon that `loads` is about to set. */
  const Blank: Provider := Provider(PyNone, None, None)

  /** The exceptions these methods can raise. */
  datatype PyError = KeyError(key: string) | AttributeError(attribute: string)

  // ---------------------------------------------------------------------------
  // Icon path
  // ---------------------------------------------------------------------------

  const IconPrefix: string := ":/icons/CAM_"
  const IconSuffix: string := ".svg"

  /** `getIcon`: the resource path of the icon. */
  function GetIcon(p: Provider): (r: string)
    ensures |r| == |IconPrefix| + |Str(p.icon)| + |IconSuffix|
    ensures r[..|IconPrefix|] == IconPrefix && r[|r| - |IconSuffix|..] == IconSuffix
    ensures r[|IconPrefix|..|r| - |IconSuffix|] == Str(p.icon)
  {
    IconPrefix + Str(p.icon) + IconSuffix
  }

  /** Two providers share an icon path exactly when their icons print the same. */
  lemma GetIconInjective(p: Provider, q: Provider)
    ensures GetIcon(p) == GetIcon(q) <==> Str(p.icon) == Str(q.icon)
  {
    if GetIcon(p) == GetIcon(q) {
      assert Str(p.icon) == GetIcon(p)[|IconPrefix|..|GetIcon(p)| - |IconSuffix|];
    }
  }

  // ---------------------------------------------------------------------------
  // Saved state
  // ---------------------------------------------------------------------------

  /** `dumps`: the icon, and the edit pair when the provider has `editModule`;
      reading a missing `editCallback` then raises. */
  function Dumps(p: Provider): (r: Result<map<string, PyValue>, PyError>)
    ensures r.Err? <==> p.editModule.Some? && p.editCallback.None?
    ensures r.Err? ==> r.error == AttributeError("editCallback")
    ensures r.Ok? ==> "icon" in r.value && r.value["icon"] == p.icon
    ensures r.Ok? ==> ("editModule" in r.value) == ("editCallback" in r.value) == p.editModule.Some?
    ensures r.Ok? && p.editModule.Some? ==>
              r.value["editModule"] == p.editModule.value && r.value["editCallback"] == p.editCallback.value
    ensures r.Ok? ==> r.value.Keys <= {"icon", "editModule", "editCallback"}
  {
    if p.editModule.None? then Ok(map["icon" := p.icon])
    else if p.editCallback.None? then Err(AttributeError("editCallback"))
    else Ok(map["icon" := p.icon, "editModule" := p.editModule.value, "editCallback" := p.editCallback.value])
  }

  /** What `loads` leaves behind: the provider, and the exception if it raised
      part way, after the assignments made before it. */
  datatype Loaded = Loaded(provider: Provider, raised: Option<PyError>)

  /** `loads(state)` into provider `p`: the icon always, the edit pair only
      when `editModule` is present and truthy; a missing key raises KeyError
      with the earlier assignments already made. */
  function Loads(p: Provider, state: map<string, PyValue>): (r: Loaded)
    ensures "icon" !in state ==> r == Loaded(p, Some(KeyError("icon")))
    ensures "icon" in state ==> r.provider.icon == state["icon"]
    ensures r.raised.Some? && "icon" in state ==>
              r.raised == Some(KeyError("editCallback")) && "editModule" in state && Truthy(state["editModule"])
              && "editCallback" !in state
    ensures "icon" in state && "editModule" in state && Truthy(state["editModule"]) ==>
              r.provider.editModule == Some(state["editModule"])
              && r.provider.editCallback == (if "editCallback" in state then Some(state["editCallback"]) else p.editCallback)
    ensures "icon" in state && !("editModule" in state && Truthy(state["editModule"])) ==>
              r == Loaded(p.(icon := state["icon"]), None)
  {
    if "icon" !in state then Loaded(p, Some(KeyError("icon")))
    else
      var withIcon := p.(icon := state["icon"]);
      if "editModule" in state && Truthy(state["editModule"]) then
        var withModule := withIcon.(editModule := Some(state["editModule"]));
        if "editCallback" !in state then Loaded(withModule, Some(KeyError("editCallback")))
        else Loaded(withModule.(editCallback := Some(state["editCallback"])), None)
      else Loaded(withIcon, None)
  }

  /** Loading a provider's own state back into it raises nothing and changes nothing. */
  lemma LoadsDumpsSame(p: Provider)
    ensures Dumps(p).Ok? ==> Loads(p, Dumps(p).value) == Loaded(p, None)
  {
  }

  /** Restoring a saved provider into a blank one keeps the icon, and keeps
      the edit pair exactly when its module name is truthy. */
  lemma LoadsDumpsRestores(p: Provider)
    requires Dumps(p).Ok?
    ensures Loads(Blank, Dumps(p).value).raised.None?
    ensures Loads(Blank, Dumps(p).value).provider.icon == p.icon
    ensures var q := Loads(Blank, Dumps(p).value).provider;
            if p.editModule.Some? && Truthy(p.editModule.value)
            then q.editModule == p.editModule && q.editCallback == p.editCallback
            else q.editModule.None? && q.editCallback.None?
  {
  }

  // ---------------------------------------------------------------------------
  // Edit callback
  // ---------------------------------------------------------------------------

  /** A Python function, by the two names `onEdit` records. */
  datatype Callable = Callable(moduleName: string, name: string)

  /** `onEdit(callback)`: record where to find the callback. */
  function OnEdit(p: Provider, callback: Callable): (r: Provider)
    ensures r.icon == p.icon
    ensures r.editModule == Some(PyStr(callback.moduleName)) && r.editCallback == Some(PyStr(callback.name))
  {
    p.(editModule := Some(PyStr(callback.moduleName)), editCallback := Some(PyStr(callback.name)))
  }

  /** What `_onEditCallback(edit)` does: nothing; import `module` and call its
      function `callback(obj, vobj, edit)`; fail in `import_module` because
      the module name is `None`; or import the module and then fail reading
      the missing `editCallback` attribute. */
  datatype Effect =
    | NoCall
    | Call(moduleName: string, callback: PyValue, edit: bool)
    | ImportOfNone
    | ImportThenNoCallback(moduleName: string)

  function EditCallback(p: Provider, edit: bool): (e: Effect)
    ensures p.editModule.None? <==> e == NoCall
    ensures e.Call? ==> p.editModule == Some(PyStr(e.moduleName)) && p.editCallback == Some(e.callback) && e.edit == edit
    ensures e == ImportOfNone <==> p.editModule == Some(PyNone)
    ensures e.ImportThenNoCallback? <==> p.editModule.Some? && p.editModule.value.PyStr? && p.editCallback.None?
  {
    match p.editModule
    case None => NoCall
    case Some(PyNone) => ImportOfNone
    case Some(PyStr(m)) =>
      match p.editCallback
      case None => ImportThenNoCallback(m)
      case Some(cb) => Call(m, cb, edit)
  }

  /** `setEdit(vobj, mode)` returns False and the effect it asks for. The
      returned False is reached only when the effect is `NoCall` or `Call`:
      `ImportOfNone` and `ImportThenNoCallback` raise inside the callback
      lookup, so `setEdit` does not return at all. */
  function SetEdit(p: Provider, mode: int): (r: (bool, Effect))
    ensures r.0 == false
    ensures mode != 0 ==> r.1 == NoCall
    ensures mode == 0 ==> r.1 == EditCallback(p, true)
  {
    (false, if mode == 0 then EditCallback(p, true) else NoCall)
  }

  /** `unsetEdit`: the same callback, told editing has ended. */
  function UnsetEdit(p: Provider): (e: Effect)
    ensures e == EditCallback(p, false)
    ensures e.Call? ==> !e.edit
  {
    EditCallback(p, false)
  }

  /** After `onEdit(cb)`, entering edit mode 0 calls `cb` with True and
      leaving it calls `cb` with False. */
  lemma OnEditThenEdit(p: Provider, cb: Callable, mode: int)
    ensures SetEdit(OnEdit(p, cb), mode) ==
              (false, if mode == 0 then Call(cb.moduleName, PyStr(cb.name), true) else NoCall)
    ensures UnsetEdit(OnEdit(p, cb)) == Call(cb.moduleName, PyStr(cb.name), false)
  {
  }

  /** A fresh provider nobody called `onEdit` on fails when edited in mode 0,
      since the attributes exist but hold `None`; one restored from a file
      without an edit pair does nothing. */
  lemma FreshAndRestoredDiffer(icon: PyValue)
    ensures SetEdit(NewProvider(icon), 0).1 == ImportOfNone
    ensures Dumps(NewProvider(icon)).Ok?
    ensures SetEdit(Loads(Blank, Dumps(NewProvider(icon)).value).provider, 0).1 == NoCall
  {
  }

  /** Saving and restoring a provider whose callback was set by `onEdit`
      keeps its edit behaviour, unless the module name was empty. */
  lemma RestoredEditsAlike(p: Provider, cb: Callable, edit: bool)
    requires |cb.moduleName| > 0
    ensures Dumps(OnEdit(p, cb)).Ok?
    ensures EditCallback(Loads(Blank, Dumps(OnEdit(p, cb)).value).provider, edit) == EditCallback(OnEdit(p, cb), edit)
  {
  }

  /** A saved state with a truthy `editModule` but no `editCallback` leaves a
      restored provider with the module and no callback: saving it again
      raises, and editing it imports the module and then fails. */
  lemma HalfLoadedProvider(icon: PyValue, m: string)
    requires |m| > 0
    ensures var l := Loads(Blank, map["icon" := icon, "editModule" := PyStr(m)]);
            && l.raised == Some(KeyError("editCallback"))
            && l.provider == Provider(icon, Some(PyStr(m)), None)
            && Dumps(l.provider) == Err(AttributeError("editCallback"))
            && SetEdit(l.provider, 0).1 == ImportThenNoCallback(m)
  {
  }

  // ---------------------------------------------------------------------------
  // Registry
  // ---------------------------------------------------------------------------

  /** What `Attach` hands out: an instance of a registered provider class,
      constructed with the name, or a generic provider showing the name's icon. */
  datatype Attached<C> = Custom(ctor: C, name: string) | Default(provider: Provider)

  /** `Attach(vobj, name)`: the scan over `_factory` stops at the key equal to `name`. */
  function Attach<C>(factory: map<string, C>, name: string): (r: Attached<C>)
    ensures name in factory <==> r.Custom?
    ensures r.Custom? ==> r.ctor == factory[name] && r.name == name
    ensures r.Default? ==> r.provider == NewProvider(PyStr(name))
  {
    if name in factory then Custom(factory[name], name) else Default(NewProvider(PyStr(name)))
  }

  /** `RegisterViewProvider(name, provider)`. */
  function RegisterViewProvider<C>(factory: map<string, C>, name: string, provider: C): (r: map<string, C>)
    ensures r.Keys == factory.Keys + {name}
    ensures r[name] == provider
    ensures forall k :: k in factory && k != name ==> r[k] == factory[k]
  {
    factory[name := provider]
  }

  /** A registration decides `Attach` for its own name and no other. */
  lemma RegisterThenAttach<C>(factory: map<string, C>, name: string, provider: C, other: string)
    ensures Attach(RegisterViewProvider(factory, name, provider), name) == Custom(provider, name)
    ensures other != name ==>
              Attach(RegisterViewProvider(factory, name, provider), other) == Attach(factory, other)
  {
  }
}

=== FILE: snapper.dfy ===
/**
 * Snap-mode bookkeeping of the Draft workbench's `Snapper`
 * (src/Mod/Draft/draftguitools/gui_snapper.py): the active-snap list and its
 * 0/1 preference string, the "Lock" master switch, toggling, the bounded
 * most-recently-used object list, the two-slot extension buffer, hold points,
 * the choice of the winning snap point and the reset done by `off`.
 *
 * Geometry is abstract: points and lines are type parameters, distances are
 * reals carried by the candidates, and colinearity and the screen-range test
 * are caller-supplied predicates.
 */
module Snapper {
  import opened Wrappers

  /** The snap keys, in the order the preference string stores them. */
  const SnapKeys: seq<string> :=
    ["Lock", "Near", "Extension", "Parallel", "Grid", "Endpoint", "Midpoint",
     "Perpendicular", "Angle", "Center", "Ortho", "Intersection", "Special",
     "Dimensions", "WorkingPlane"]

  /** The most-recently-used object list keeps this many names. */
  const MaxLastObjects: nat := 8

  /** The initial "shortest distance" of the winner search; nothing at or beyond it can win. */
  const Unreached: real := 1000000000000000000.0

  lemma SnapKeysDistinct()
    ensures |SnapKeys| == 15
    ensures NoDup(SnapKeys)
  {
  }

  // ---------------------------------------------------------------------------
  // The snapModes preference string
  // ---------------------------------------------------------------------------

  /** Why reading the preference string raises. */
  datatype ParseError =
    | NotADigit(pos: nat)   // `int(c)` raises ValueError
    | NoSuchSnap(pos: nat)  // a non-zero flag past the last key: IndexError on `snaps[i]`

  predicate IsDigit(c: char) { '0' <= c <= '9' }

  function Min(a: int, b: int): int { if a <= b then a else b }

  /** The string is read without raising: every character is a digit and
      every flag past the last snap key is zero. */
  predicate WellFormedModes(s: string) {
    forall i :: 0 <= i < |s| ==> IsDigit(s[i]) && (i >= |SnapKeys| ==> s[i] == '0')
  }

  /** Reference reading: the keys whose flag is non-zero, in key order. */
  function Flagged(s: string): seq<string>
    requires |s| <= |SnapKeys|
  {
    if |s| == 0 then []
    else Flagged(s[..|s| - 1]) + (if s[|s| - 1] != '0' then [SnapKeys[|s| - 1]] else [])
  }

  /** `init_active_snaps`: the active snaps read from the preference string,
      or the error the first offending character raises. */
  method ParseSnapModes(s: string) returns (r: Result<seq<string>, ParseError>)
    ensures r.Ok? <==> WellFormedModes(s)
    ensures r.Ok? ==> r.value == Flagged(s[..Min(|s|, |SnapKeys|)])
    ensures r.Err? && r.error.NotADigit? ==>
              r.error.pos < |s| && !IsDigit(s[r.error.pos]) && WellFormedModes(s[..r.error.pos])
    ensures r.Err? && r.error.NoSuchSnap? ==>
              |SnapKeys| <= r.error.pos < |s| && IsDigit(s[r.error.pos]) && s[r.error.pos] != '0'
              && WellFormedModes(s[..r.error.pos])
  {
    var active: seq<string> := [];
    var i := 0;
    while i < |s|
      invariant 0 <= i <= |s|
      invariant WellFormedModes(s[..i])
      invariant active == Flagged(s[..Min(i, |SnapKeys|)])
    {
      ModesStep(s, i);
      if !IsDigit(s[i]) {
        return Err(NotADigit(i));
      }
      if s[i] != '0' {
        if i >= |SnapKeys| {
          return Err(NoSuchSnap(i));
        }
        active := active + [SnapKeys[i]];
      }
      i := i + 1;
    }
    assert s[..|s|] == s;
    return Ok(active);
  }

  /** One more character of the preference string: how well-formedness and
      the flagged keys of the prefix read so far change. */
  lemma ModesStep(s: string, i: nat)
    requires i < |s|
    ensures WellFormedModes(s[..i + 1]) <==>
              WellFormedModes(s[..i]) && IsDigit(s[i]) && (i >= |SnapKeys| ==> s[i] == '0')
    ensures !WellFormedModes(s[..i + 1]) ==> !WellFormedModes(s)
    ensures i < |SnapKeys| ==>
              Flagged(s[..i + 1]) == Flagged(s[..i]) + (if s[i] != '0' then [SnapKeys[i]] else [])
    ensures i >= |SnapKeys| ==> s[..i + 1][..Min(i + 1, |SnapKeys|)] == s[..i][..Min(i, |SnapKeys|)]
  {
    assert s[..i + 1][..i] == s[..i];
    assert forall j :: 0 <= j < i ==> s[..i + 1][j] == s[..i][j];
  }

  /** `save_snap_state`: one '1' or '0' per snap key, in key order. */
  function SaveSnapState(active: seq<string>): (r: string)
    ensures |r| == |SnapKeys|
    ensures forall i :: 0 <= i < |r| ==> (r[i] == '1' <==> SnapKeys[i] in active)
    ensures forall i :: 0 <= i < |r| ==> r[i] == '1' || r[i] == '0'
  {
    seq(|SnapKeys|, i requires 0 <= i < |SnapKeys| => if SnapKeys[i] in active then '1' else '0')
  }

  lemma {:induction false} FlaggedMembers(s: string, x: string)
    requires |s| <= |SnapKeys|
    ensures x in Flagged(s) <==> exists i :: 0 <= i < |s| && s[i] != '0' && SnapKeys[i] == x
  {
    if |s| > 0 {
      var t := s[..|s| - 1];
      FlaggedMembers(t, x);
      if x in Flagged(t) {
        var i :| 0 <= i < |t| && t[i] != '0' && SnapKeys[i] == x;
        assert s[i] == t[i];
      }
      if exists i :: 0 <= i < |s| && s[i] != '0' && SnapKeys[i] == x {
        var i :| 0 <= i < |s| && s[i] != '0' && SnapKeys[i] == x;
        if i < |s| - 1 {
          assert t[i] == s[i];
        }
      }
    }
  }

  lemma {:induction false} FlaggedInKeyOrder(s: string)
    requires |s| <= |SnapKeys|
    ensures NoDup(Flagged(s))
    ensures forall x :: x in Flagged(s) ==> x in SnapKeys[..|s|]
    ensures Subsequence(Flagged(s), SnapKeys[..|s|])
  {
    if |s| > 0 {
      var t := s[..|s| - 1];
      FlaggedInKeyOrder(t);
      assert SnapKeys[..|s|] == SnapKeys[..|t|] + [SnapKeys[|t|]];
      var key := SnapKeys[|t|];
      SubsequenceSnoc(Flagged(t), SnapKeys[..|t|], key);
      if s[|t|] != '0' {
        assert Flagged(s) == Flagged(t) + [key];
      } else {
        assert Flagged(s) == Flagged(t);
      }
      SnapKeysDistinct();
      assert SnapKeys[|t|] !in SnapKeys[..|t|];
    }
  }

  /** Writing the preference string and reading it back yields the active
      snaps that are snap keys, each once, in key order. */
  lemma SaveThenParse(active: seq<string>)
    ensures WellFormedModes(SaveSnapState(active))
    ensures forall x :: x in Flagged(SaveSnapState(active)) <==> x in active && x in SnapKeys
    ensures NoDup(Flagged(SaveSnapState(active)))
  {
    var s := SaveSnapState(active);
    FlaggedInKeyOrder(s);
    forall x
      ensures x in Flagged(s) <==> x in active && x in SnapKeys
    {
      FlaggedMembers(s, x);
      if x in active && x in SnapKeys {
        var i :| 0 <= i < |SnapKeys| && SnapKeys[i] == x;
        assert s[i] != '0';
      }
    }
  }

  /** Reading a full-length 0/1 string and writing it back gives the same string. */
  lemma ParseThenSave(s: string)
    requires |s| == |SnapKeys|
    requires forall i :: 0 <= i < |s| ==> s[i] == '0' || s[i] == '1'
    ensures SaveSnapState(Flagged(s)) == s
  {
    var r := SaveSnapState(Flagged(s));
    forall i | 0 <= i < |s|
      ensures r[i] == s[i]
    {
      FlaggedMembers(s, SnapKeys[i]);
      SnapKeysDistinct();
      if SnapKeys[i] in Flagged(s) {
        var j :| 0 <= j < |s| && s[j] != '0' && SnapKeys[j] == SnapKeys[i];
        assert j == i;
      }
    }
  }

  // ---------------------------------------------------------------------------
  // Enabling and toggling snaps
  // ---------------------------------------------------------------------------

  /** `isEnabled`: a snap is on only while the "Lock" master switch is on too. */
  predicate IsEnabled(active: seq<string>, snap: string) {
    "Lock" in active && snap in active
  }

  /** What `toggle_snap` leaves behind: the new active list, its return value
      and the preference string it saved. */
  datatype Toggled = Toggled(active: seq<string>, status: bool, saved: string)

  /** `toggle_snap(snap, set_to)`. `set_to` is `None`, `True` or `False`;
      `False` is falsy and so takes the toggle branch. */
  function ToggleSnap(active: seq<string>, snap: string, setTo: Option<bool>): (r: Toggled)
    ensures setTo == Some(true) ==> r.status && snap in r.active
    ensures setTo != Some(true) ==> (r.status <==> snap !in active)
    ensures NoDup(active) ==> (r.status <==> snap in r.active)
    ensures forall s :: s != snap ==> (s in r.active <==> s in active)
    ensures NoDup(active) ==> NoDup(r.active)
    ensures r.saved == SaveSnapState(r.active)
  {
    var a :=
      if setTo == Some(true) then (if snap in active then active else active + [snap])
      else if snap !in active then active + [snap]
      else RemoveFirst(active, snap);
    var status := setTo == Some(true) || snap !in active;
    Toggled(a, status, SaveSnapState(a))
  }

  /** Switching "Lock" off switches every snap off. */
  lemma LockOffDisablesAll(active: seq<string>)
    requires NoDup(active) && "Lock" in active
    ensures !ToggleSnap(active, "Lock", None).status
    ensures forall s :: !IsEnabled(ToggleSnap(active, "Lock", None).active, s)
  {
  }

  /** Toggling the same snap twice restores its membership and every other snap's. */
  lemma ToggleTwice(active: seq<string>, snap: string)
    requires NoDup(active)
    ensures var once := ToggleSnap(active, snap, None).active;
            var twice := ToggleSnap(once, snap, None).active;
            forall s :: s in twice <==> s in active
  {
  }

  // ---------------------------------------------------------------------------
  // The most-recently-used objects and the extension buffer
  // ---------------------------------------------------------------------------

  /** The `lastObj` update in `snapToObject`: move `name` to the end and keep
      the last eight entries. */
  function RecordObject(lastObj: seq<string>, name: string): (r: seq<string>)
    ensures 0 < |r| <= MaxLastObjects
    ensures r[|r| - 1] == name
    ensures var rest := RemoveFirst(lastObj, name);
            |r| == Min(|rest| + 1, MaxLastObjects) && r[..|r| - 1] == rest[|rest| - (|r| - 1)..]
    ensures NoDup(lastObj) ==> NoDup(r) && name !in r[..|r| - 1]
  {
    var rest := RemoveFirst(lastObj, name);
    var l := rest + [name];
    AppendedSuffix(rest, name, if |l| > MaxLastObjects then |l| - MaxLastObjects else 0);
    if |l| > MaxLastObjects then l[|l| - MaxLastObjects..] else l
  }

  /** A suffix of `rest + [name]`: `name` last, a suffix of `rest` before it,
      and no duplicates when `rest` has none and lacks `name`. */
  lemma AppendedSuffix(rest: seq<string>, name: string, k: nat)
    requires k <= |rest|
    ensures var r := (rest + [name])[k..];
            |r| == |rest| + 1 - k && r[|r| - 1] == name && r[..|r| - 1] == rest[k..]
            && (NoDup(rest) && name !in rest ==> NoDup(r) && name !in r[..|r| - 1])
  {
    var r := (rest + [name])[k..];
    assert r[..|r| - 1] == rest[k..];
    if NoDup(rest) && name !in rest {
      forall i, j | 0 <= i < j < |r|
        ensures r[i] != r[j]
      {
        if j < |r| - 1 {
          assert r[i] == rest[k + i] && r[j] == rest[k + j];
        } else {
          assert r[i] == rest[k + i];
        }
      }
    }
  }

  /** The extension line `ne` is already represented: it is colinear with an
      entry the update compares it with. */
  predicate Colinear<L>(ext: seq<L>, ne: L, colinear: (L, L) -> bool) {
    (|ext| >= 1 && colinear(ne, ext[0])) || (|ext| >= 2 && colinear(ne, ext[1]))
  }

  /** The `lastExtensions` update in `snapToExtensions`. */
  function UpdateExtensions<L>(ext: seq<L>, ne: L, colinear: (L, L) -> bool): (r: seq<L>)
    ensures |ext| <= 2 ==> |r| <= 2
    ensures Colinear(ext, ne, colinear) ==> r == ext
    ensures !Colinear(ext, ne, colinear) ==>
              && |r| == (if |ext| <= 1 then |ext| + 1 else |ext|)
              && r[0] == ne
              && (|ext| >= 1 ==> r[1] == ext[0])
              && (|ext| >= 2 ==> r[2..] == ext[2..])
  {
    if |ext| == 0 then [ne]
    else if |ext| == 1 then (if !colinear(ne, ext[0]) then [ne, ext[0]] else ext)
    else if !colinear(ne, ext[0]) && !colinear(ne, ext[1]) then ext[1 := ext[0]][0 := ne]
    else ext
  }

  /** `addHoldPoint`: the current snap point joins the hold points unless it
      is unset or already there. */
  function AddHoldPoint<P(==)>(holdPoints: seq<P>, spoint: Option<P>): (r: seq<P>)
    ensures spoint.Some? ==> spoint.value in r
    ensures forall i :: 0 <= i < |r| ==> r[i] in holdPoints || spoint == Some(r[i])
    ensures NoDup(holdPoints) ==> NoDup(r)
    ensures |holdPoints| <= |r| <= |holdPoints| + 1 && r[..|holdPoints|] == holdPoints
  {
    if spoint.Some? && spoint.value !in holdPoints then holdPoints + [spoint.value] else holdPoints
  }

  // ---------------------------------------------------------------------------
  // Choosing the winning snap point
  // ---------------------------------------------------------------------------

  /** A snap point found on an object; `dist` is its distance to the cursor. */
  datatype Candidate<P> = Candidate(point: P, kind: string, dist: real)

  /** Candidate `c` takes part in a search (only non-"passive" ones when `notNear`). */
  predicate Eligible<P>(c: Option<Candidate<P>>, notNear: bool) {
    c.Some? && (!notNear || c.value.kind != "passive")
  }

  /** Among the first `n` candidates, `i` is the first eligible one of least
      distance, and that distance is below `Unreached`. */
  predicate FirstNearest<P>(cands: seq<Option<Candidate<P>>>, n: nat, i: nat, notNear: bool)
    requires n <= |cands|
  {
    && i < n
    && Eligible(cands[i], notNear)
    && cands[i].value.dist < Unreached
    && (forall j :: 0 <= j < n && Eligible(cands[j], notNear) ==> cands[i].value.dist <= cands[j].value.dist)
    && (forall j :: 0 <= j < i && Eligible(cands[j], notNear) ==> cands[i].value.dist < cands[j].value.dist)
  }

  /** No eligible candidate among the first `n` is nearer than `Unreached`. */
  predicate NoneNearer<P>(cands: seq<Option<Candidate<P>>>, n: nat, notNear: bool)
    requires n <= |cands|
  {
    forall j :: 0 <= j < n && Eligible(cands[j], notNear) ==> cands[j].value.dist >= Unreached
  }

  /** The winner selection of `snapToObject`. `nearest` is `winner_all`,
      `nearestNotNear` is `winner_not_near`; `withinRange` is the screen-distance
      test against `snapRange`. Results are indices into `cands`. */
  method SelectWinner<P>(cands: seq<Option<Candidate<P>>>, withinRange: P -> bool)
    returns (winner: Option<nat>, nearest: Option<nat>, nearestNotNear: Option<nat>)
    ensures nearest.Some? ==> FirstNearest(cands, |cands|, nearest.value, false)
    ensures nearest.None? ==> NoneNearer(cands, |cands|, false)
    ensures nearestNotNear.Some? ==> FirstNearest(cands, |cands|, nearestNotNear.value, true)
    ensures nearestNotNear.None? ==> NoneNearer(cands, |cands|, true)
    ensures nearestNotNear.Some? ==> nearest.Some?
    ensures winner.Some? <==> nearest.Some?
    ensures winner != nearest ==>
              && nearestNotNear.Some? && nearest.Some? && winner == nearestNotNear
              && cands[nearestNotNear.value].value.dist != cands[nearest.value].value.dist
              && withinRange(cands[nearestNotNear.value].value.point)
    ensures (&& nearestNotNear.Some? && nearest.Some?
             && cands[nearestNotNear.value].value.dist != cands[nearest.value].value.dist
             && withinRange(cands[nearestNotNear.value].value.point)) ==> winner == nearestNotNear
  {
    var shortestAll := Unreached;
    var shortestNotNear := Unreached;
    nearest := None;
    nearestNotNear := None;
    for k := 0 to |cands|
      invariant nearest.Some? ==>
                  FirstNearest(cands, k, nearest.value, false) && shortestAll == cands[nearest.value].value.dist
      invariant nearest.None? ==> NoneNearer(cands, k, false) && shortestAll == Unreached
      invariant nearestNotNear.Some? ==>
                  FirstNearest(cands, k, nearestNotNear.value, true) && shortestNotNear == cands[nearestNotNear.value].value.dist
      invariant nearestNotNear.None? ==> NoneNearer(cands, k, true) && shortestNotNear == Unreached
      invariant nearestNotNear.Some? ==> nearest.Some?
    {
      var c := cands[k];
      if c.Some? {
        var dist := c.value.dist;
        if c.value.kind != "passive" {
          if dist < shortestNotNear {
            shortestNotNear := dist;
            nearestNotNear := Some(k);
          }
        }
        if dist < shortestAll {
          shortestAll := dist;
          nearest := Some(k);
        }
      }
    }
    if nearestNotNear.None? || shortestNotNear == shortestAll {
      winner := nearest;
    } else if withinRange(cands[nearestNotNear.value].value.point) {
      winner := nearestNotNear;
    } else {
      winner := nearest;
    }
  }

  // ---------------------------------------------------------------------------
  // The snapper as a whole
  // ---------------------------------------------------------------------------

  /** The bookkeeping part of a `Snapper`. */
  datatype State<P, L> = State(
    activeSnaps: seq<string>,
    lastObj: seq<string>,
    lastExtensions: seq<L>,
    holdPoints: seq<P>,
    mask: Option<string>,
    selectMode: bool,
    running: bool,
    radius: real)

  /** What every operation keeps: no snap twice, at most eight distinct recent
      objects, at most two extension lines, distinct hold points. */
  predicate Valid<P(==), L>(st: State<P, L>) {
    && NoDup(st.activeSnaps)
    && |st.lastObj| <= MaxLastObjects && NoDup(st.lastObj)
    && |st.lastExtensions| <= 2
    && NoDup(st.holdPoints)
  }

  /** The state `__init__` leaves, given the snaps read from the preferences. */
  function Initial<P, L>(snapModes: string): (st: State<P, L>)
    requires WellFormedModes(snapModes)
    ensures Valid(st)
    ensures forall i :: 0 <= i < Min(|snapModes|, |SnapKeys|) ==>
              (SnapKeys[i] in st.activeSnaps <==> snapModes[i] != '0')
    ensures forall x :: x in st.activeSnaps ==> x in SnapKeys[..Min(|snapModes|, |SnapKeys|)]
    ensures st.lastObj == [] && st.lastExtensions == [] && st.holdPoints == []
    ensures st.mask.None? && !st.selectMode && !st.running && st.radius == 0.0
  {
    var modes := snapModes[..Min(|snapModes|, |SnapKeys|)];
    FlaggedInKeyOrder(modes);
    SnapKeysDistinct();
    forall i | 0 <= i < |modes|
      ensures SnapKeys[i] in Flagged(modes) <==> modes[i] != '0'
    {
      FlaggedMembers(modes, SnapKeys[i]);
      if SnapKeys[i] in Flagged(modes) {
        var j :| 0 <= j < |modes| && modes[j] != '0' && SnapKeys[j] == SnapKeys[i];
        assert j == i;
      }
    }
    State(Flagged(modes), [], [], [], None, false, false, 0.0)
  }

  /** `off`: forget hold points and recent objects, clear the mask, leave
      select mode, stop running and reset the snap radius. */
  function Off<P, L>(st: State<P, L>): (r: State<P, L>)
    ensures Valid(st) ==> Valid(r)
    ensures |r.holdPoints| == 0 && |r.lastObj| == 0
    ensures r.mask.None? && !r.selectMode && !r.running && r.radius == 0.0
    ensures r.activeSnaps == st.activeSnaps && r.lastExtensions == st.lastExtensions
  {
    st.(radius := 0.0, mask := None, selectMode := false, running := false, holdPoints := [], lastObj := [])
  }

  /** Every bookkeeping step keeps the snapper valid. */
  lemma StepsPreserveValid<P, L>(st: State<P, L>, snap: string, setTo: Option<bool>,
                                     name: string, ne: L, colinear: (L, L) -> bool, spoint: Option<P>)
    requires Valid(st)
    ensures Valid(st.(activeSnaps := ToggleSnap(st.activeSnaps, snap, setTo).active))
    ensures Valid(st.(lastObj := RecordObject(st.lastObj, name)))
    ensures Valid(st.(lastExtensions := UpdateExtensions(st.lastExtensions, ne, colinear)))
    ensures Valid(st.(holdPoints := AddHoldPoint(st.holdPoints, spoint)))
    ensures Valid(Off(st))
  {
  }
}

=== FILE: task_dimension.dfy ===
/**
 * The tolerance part of the TechDraw dimension task panel
 * (src/Mod/TechDraw/Gui/TaskDimension.cpp) as a record-to-record state
 * machine: the check boxes, the over/under tolerance spin boxes with their
 * units and lower bound, the tolerance format fields, which widgets are
 * enabled, the dimension feature's properties the handlers write, and the
 * document transaction the panel opens and closes.
 *
 * Each handler is the effect of one user edit; the signals a handler's own
 * widget updates would emit again are not followed.
 */
module TaskDimension {
  import opened Wrappers

  datatype Unit = Length | Angle

  /** The properties of the TechDraw dimension the panel reads and writes. */
  datatype DimFeature = DimFeature(
    theoreticalExact: bool,
    equalTolerance: bool,
    arbitraryTolerances: bool,
    overTolerance: real,
    underTolerance: real,
    formatSpecOverTolerance: string,
    formatSpecUnderTolerance: string,
    isAngle: bool)  // Type is "Angle" or "Angle3Pt"

  /** The undo transaction of the document. */
  datatype Transaction = NotOpen | Open | Committed | Aborted

  /** The tolerance widgets of the panel, the feature and the transaction. */
  datatype Panel = Panel(
    exactChecked: bool,
    equalChecked: bool,
    arbitraryTolChecked: bool,
    over: real,
    under: real,
    overUnit: Unit,
    underUnit: Unit,
    overNonNegative: bool,   // the over box's lower bound is 0 rather than -DBL_MAX
    fmtOver: string,
    fmtUnder: string,
    equalEnabled: bool,
    overEnabled: bool,
    underEnabled: bool,
    fmtOverEnabled: bool,
    fmtUnderEnabled: bool,
    arbitraryTolEnabled: bool,
    feature: DimFeature,
    original: DimFeature,    // the feature as it was when the transaction opened
    txn: Transaction)

  /** `QuantitySpinBox::setValue` on the over box: below a lower bound of 0, the value becomes 0. */
  function Clamp(v: real, nonNegative: bool): (r: real)
    ensures !nonNegative ==> r == v
    ensures nonNegative ==> r >= 0.0 && (v >= 0.0 ==> r == v)
  {
    if nonNegative && v < 0.0 then 0.0 else v
  }

  /** Theoretically exact: no tolerance input can be edited. */
  predicate ExactLocksTolerances(p: Panel) {
    p.exactChecked ==>
      !p.equalEnabled && !p.overEnabled && !p.underEnabled && !p.fmtOverEnabled && !p.fmtUnderEnabled
  }

  /** Equal tolerance: the under tolerance mirrors a non-negative over
      tolerance and cannot be edited. */
  predicate EqualLinksTolerances(p: Panel) {
    p.equalChecked ==>
      && p.overNonNegative && p.over >= 0.0
      && p.under == -p.over && p.underUnit == p.overUnit
      && !p.underEnabled && !p.fmtUnderEnabled
  }

  /** The constructor: widgets loaded from the feature, tolerance inputs
      disabled as the feature's flags demand, and a transaction opened. */
  function OpenPanel(f: DimFeature): (p: Panel)
    ensures p.txn == Open && p.feature == f && p.original == f
    ensures p.exactChecked == f.theoreticalExact && p.equalChecked == f.equalTolerance
    ensures ExactLocksTolerances(p)
    ensures f.equalTolerance ==> p.overNonNegative && p.over >= 0.0 && !p.underEnabled && !p.fmtUnderEnabled
    ensures !f.theoreticalExact && !f.equalTolerance ==>
              p.equalEnabled && p.overEnabled && p.underEnabled && p.fmtOverEnabled && p.fmtUnderEnabled
    ensures p.arbitraryTolEnabled
    ensures p.overUnit == p.underUnit == (if f.isAngle then Angle else Length)
    ensures p.over == Clamp(f.overTolerance, f.equalTolerance) && p.under == f.underTolerance
    ensures p.overNonNegative == f.equalTolerance
    ensures p.fmtOver == f.formatSpecOverTolerance && p.fmtUnder == f.formatSpecUnderTolerance
    ensures p.arbitraryTolChecked == f.arbitraryTolerances
    ensures p.equalEnabled == p.overEnabled == p.fmtOverEnabled == !f.theoreticalExact
    ensures p.underEnabled == p.fmtUnderEnabled == (!f.theoreticalExact && !f.equalTolerance)
  {
    var unit := if f.isAngle then Angle else Length;
    Panel(
      exactChecked := f.theoreticalExact,
      equalChecked := f.equalTolerance,
      arbitraryTolChecked := f.arbitraryTolerances,
      over := Clamp(f.overTolerance, f.equalTolerance),
      under := f.underTolerance,
      overUnit := unit,
      underUnit := unit,
      overNonNegative := f.equalTolerance,
      fmtOver := f.formatSpecOverTolerance,
      fmtUnder := f.formatSpecUnderTolerance,
      equalEnabled := !f.theoreticalExact,
      overEnabled := !f.theoreticalExact,
      underEnabled := !f.theoreticalExact && !f.equalTolerance,
      fmtOverEnabled := !f.theoreticalExact,
      fmtUnderEnabled := !f.theoreticalExact && !f.equalTolerance,
      arbitraryTolEnabled := true,
      feature := f,
      original := f,
      txn := Open)
  }

  /** `onTheoreticallyExactChanged` after the box was set to `checked`. */
  function OnTheoreticallyExactChanged(p: Panel, checked: bool): (r: Panel)
    ensures r.exactChecked == checked && r.feature.theoreticalExact == checked
    ensures ExactLocksTolerances(r)
    ensures checked ==> r.over == 0.0 && r.under == 0.0
    ensures checked ==> !r.arbitraryTolChecked && !r.arbitraryTolEnabled
    ensures !checked ==> r.equalEnabled && r.overEnabled && r.fmtOverEnabled && r.arbitraryTolEnabled
    ensures !checked ==> (r.underEnabled <==> p.underEnabled || !p.equalChecked)
    ensures !checked ==> (r.fmtUnderEnabled <==> p.fmtUnderEnabled || !p.equalChecked)
    ensures !checked ==> r.over == p.over && r.under == p.under && r.arbitraryTolChecked == p.arbitraryTolChecked
    ensures r.equalChecked == p.equalChecked && r.overNonNegative == p.overNonNegative && r.txn == p.txn
    ensures r.fmtOver == p.fmtOver && r.fmtUnder == p.fmtUnder
    ensures r.feature == p.feature.(theoreticalExact := checked)
    ensures r.overUnit == p.overUnit && r.underUnit == p.underUnit && r.original == p.original
  {
    var q := p.(exactChecked := checked, feature := p.feature.(theoreticalExact := checked));
    if checked then
      q.(over := 0.0, under := 0.0,
         equalEnabled := false, overEnabled := false, underEnabled := false,
         fmtOverEnabled := false, fmtUnderEnabled := false,
         arbitraryTolEnabled := false, arbitraryTolChecked := false)
    else
      var q2 := q.(equalEnabled := true, overEnabled := true, fmtOverEnabled := true, arbitraryTolEnabled := true);
      if !q2.equalChecked then q2.(underEnabled := true, fmtUnderEnabled := true) else q2
  }

  /** `onEqualToleranceChanged` after the box was set to `checked`. */
  function OnEqualToleranceChanged(p: Panel, checked: bool): (r: Panel)
    ensures r.equalChecked == checked && r.feature.equalTolerance == checked
    ensures checked ==> EqualLinksTolerances(r)
    ensures checked ==> r.over == (if p.over < 0.0 then 0.0 else p.over)
    ensures !checked ==> !r.overNonNegative && r.over == p.over && r.under == p.under
    ensures !checked ==> (r.underEnabled <==> p.underEnabled || !p.exactChecked)
    ensures !checked ==> (r.fmtUnderEnabled <==> p.fmtUnderEnabled || !p.exactChecked)
    ensures r.exactChecked == p.exactChecked && r.arbitraryTolChecked == p.arbitraryTolChecked
    ensures r.equalEnabled == p.equalEnabled && r.overEnabled == p.overEnabled
    ensures r.fmtOverEnabled == p.fmtOverEnabled && r.arbitraryTolEnabled == p.arbitraryTolEnabled
    ensures r.fmtOver == p.fmtOver && r.fmtUnder == p.fmtUnder && r.txn == p.txn
    ensures r.feature == p.feature.(equalTolerance := checked)
    ensures r.overUnit == p.overUnit && r.original == p.original
    ensures !checked ==> r.underUnit == p.underUnit
  {
    if checked then
      var over := if p.over < 0.0 then 0.0 else p.over;
      p.(equalChecked := true, feature := p.feature.(equalTolerance := true),
         over := over, overNonNegative := true, under := -over, underUnit := p.overUnit,
         underEnabled := false, fmtUnderEnabled := false)
    else
      // the under inputs come back unless the tolerance is theoretically exact
      p.(equalChecked := false, feature := p.feature.(equalTolerance := false),
         overNonNegative := false,
         underEnabled := p.underEnabled || !p.exactChecked,
         fmtUnderEnabled := p.fmtUnderEnabled || !p.exactChecked)
  }

  /** `onOvertoleranceChanged` after the user typed `v` into the over-tolerance box. */
  function OnOvertoleranceChanged(p: Panel, v: real): (r: Panel)
    ensures r.over == Clamp(v, p.overNonNegative) && r.feature.overTolerance == r.over
    ensures p.equalChecked ==> r.under == -r.over && r.underUnit == r.overUnit
    ensures !p.equalChecked ==> r.under == p.under && r.underUnit == p.underUnit
    ensures r == p.(over := r.over, under := r.under, underUnit := r.underUnit,
                    feature := p.feature.(overTolerance := r.over))
  {
    var over := Clamp(v, p.overNonNegative);
    var q := p.(over := over, feature := p.feature.(overTolerance := over));
    if q.equalChecked then q.(under := -over, underUnit := q.overUnit) else q
  }

  /** `onUndertoleranceChanged` after the user typed `v` into the under-tolerance box. */
  function OnUndertoleranceChanged(p: Panel, v: real): (r: Panel)
    ensures r.under == v && r.feature.underTolerance == v
    ensures r == p.(under := v, feature := p.feature.(underTolerance := v))
  {
    p.(under := v, feature := p.feature.(underTolerance := v))
  }

  /** `onArbitraryTolerancesChanged` after the box was set to `checked`. */
  function OnArbitraryTolerancesChanged(p: Panel, checked: bool): (r: Panel)
    ensures r.arbitraryTolChecked == checked && r.feature.arbitraryTolerances == checked
    ensures r == p.(arbitraryTolChecked := checked, feature := p.feature.(arbitraryTolerances := checked))
  {
    p.(arbitraryTolChecked := checked, feature := p.feature.(arbitraryTolerances := checked))
  }

  /** `onFormatSpecifierOverToleranceChanged`: store the text; with equal
      (and not arbitrary) tolerances, copy it to the under-tolerance field. */
  function OnFormatSpecOverChanged(p: Panel, text: string): (r: Panel)
    ensures r.fmtOver == text && r.feature.formatSpecOverTolerance == text
    ensures !p.arbitraryTolChecked && p.equalChecked ==>
              r.fmtUnder == text && r.feature.formatSpecUnderTolerance == text
    ensures !p.arbitraryTolChecked && p.equalChecked ==>
              r == p.(fmtOver := text, fmtUnder := text,
                      feature := p.feature.(formatSpecOverTolerance := text, formatSpecUnderTolerance := text))
    ensures p.arbitraryTolChecked || !p.equalChecked ==>
              r == p.(fmtOver := text, feature := p.feature.(formatSpecOverTolerance := text))
    ensures r.over == p.over && r.under == p.under && r.txn == p.txn
  {
    var q := p.(fmtOver := text, feature := p.feature.(formatSpecOverTolerance := text));
    if q.arbitraryTolChecked then q
    else if q.equalChecked then q.(fmtUnder := text, feature := q.feature.(formatSpecUnderTolerance := text))
    else q
  }

  /** `onFormatSpecifierUnderToleranceChanged`, the mirror image. */
  function OnFormatSpecUnderChanged(p: Panel, text: string): (r: Panel)
    ensures r.fmtUnder == text && r.feature.formatSpecUnderTolerance == text
    ensures !p.arbitraryTolChecked && p.equalChecked ==>
              r.fmtOver == text && r.feature.formatSpecOverTolerance == text
    ensures !p.arbitraryTolChecked && p.equalChecked ==>
              r == p.(fmtOver := text, fmtUnder := text,
                      feature := p.feature.(formatSpecOverTolerance := text, formatSpecUnderTolerance := text))
    ensures p.arbitraryTolChecked || !p.equalChecked ==>
              r == p.(fmtUnder := text, feature := p.feature.(formatSpecUnderTolerance := text))
    ensures r.over == p.over && r.under == p.under && r.txn == p.txn
  {
    var q := p.(fmtUnder := text, feature := p.feature.(formatSpecUnderTolerance := text));
    if q.arbitraryTolChecked then q
    else if q.equalChecked then q.(fmtOver := text, feature := q.feature.(formatSpecOverTolerance := text))
    else q
  }

  /** Whether `accept`/`reject` returned, and the panel after. */
  datatype Closed = Closed(result: bool, panel: Panel, warned: bool)

  /** `accept`: commit the transaction, or only warn when the view provider is gone. */
  function Accept(p: Panel, providerAlive: bool): (c: Closed)
    ensures c.result
    ensures providerAlive ==> c.panel.txn == Committed && !c.warned
    ensures !providerAlive ==> c.panel == p && c.warned
    ensures c.panel.feature == p.feature
  {
    if !providerAlive then Closed(true, p, true) else Closed(true, p.(txn := Committed), false)
  }

  /** `reject`: abort the transaction, which undoes every property change
      made since it opened, or only warn when the view provider is gone. */
  function Reject(p: Panel, providerAlive: bool): (c: Closed)
    ensures c.result
    ensures providerAlive ==> c.panel.txn == Aborted && !c.warned && c.panel.feature == p.original
    ensures !providerAlive ==> c.panel == p && c.warned
  {
    if !providerAlive then Closed(true, p, true) else Closed(true, p.(txn := Aborted, feature := p.original), false)
  }

  /** The user edits the panel can receive while it is open. */
  datatype Edit =
    | SetExact(checked: bool)
    | SetEqual(checked: bool)
    | SetArbitraryTolerances(checked: bool)
    | TypeOver(v: real)
    | TypeUnder(v: real)
    | TypeFormatOver(text: string)
    | TypeFormatUnder(text: string)

  /** Whether the widget an edit goes through is enabled, so that the user can make it. */
  predicate Possible(p: Panel, e: Edit) {
    match e
    case SetExact(_) => true
    case SetEqual(_) => p.equalEnabled
    case SetArbitraryTolerances(_) => p.arbitraryTolEnabled
    case TypeOver(_) => p.overEnabled
    case TypeUnder(_) => p.underEnabled
    case TypeFormatOver(_) => p.fmtOverEnabled
    case TypeFormatUnder(_) => p.fmtUnderEnabled
  }

  /** The handler an edit triggers; none of them touches the transaction. */
  function Apply(p: Panel, e: Edit): (r: Panel)
    ensures r.original == p.original && r.txn == p.txn
  {
    match e
    case SetExact(c) => OnTheoreticallyExactChanged(p, c)
    case SetEqual(c) => OnEqualToleranceChanged(p, c)
    case SetArbitraryTolerances(c) => OnArbitraryTolerancesChanged(p, c)
    case TypeOver(v) => OnOvertoleranceChanged(p, v)
    case TypeUnder(v) => OnUndertoleranceChanged(p, v)
    case TypeFormatOver(t) => OnFormatSpecOverChanged(p, t)
    case TypeFormatUnder(t) => OnFormatSpecUnderChanged(p, t)
  }

  /** Every edit the enabled widgets allow keeps both locks: theoretically
      exact keeps the tolerance inputs disabled, and equal tolerance keeps the
      under tolerance equal to the negated, non-negative over tolerance. */
  lemma EditsKeepLocks(p: Panel, e: Edit)
    requires ExactLocksTolerances(p) && EqualLinksTolerances(p) && Possible(p, e)
    ensures ExactLocksTolerances(Apply(p, e)) && EqualLinksTolerances(Apply(p, e))
  {
  }

  /** A run of possible edits on an opened panel keeps both locks once they hold. */
  lemma {:induction false} EditRunKeepsLocks(p: Panel, es: seq<Edit>)
    requires ExactLocksTolerances(p) && EqualLinksTolerances(p)
    ensures var q := ApplyPossible(p, es); ExactLocksTolerances(q) && EqualLinksTolerances(q)
    decreases |es|
  {
    if |es| > 0 {
      var q := if Possible(p, es[0]) then Apply(p, es[0]) else p;
      if Possible(p, es[0]) {
        EditsKeepLocks(p, es[0]);
      }
      EditRunKeepsLocks(q, es[1..]);
    }
  }

  /** Apply the edits in order, skipping those whose widget is disabled. */
  function ApplyPossible(p: Panel, es: seq<Edit>): Panel
    decreases |es|
  {
    if |es| == 0 then p
    else ApplyPossible(if Possible(p, es[0]) then Apply(p, es[0]) else p, es[1..])
  }

  /** Edits never touch the feature the transaction started from. */
  lemma {:induction false} EditRunKeepsOriginal(p: Panel, es: seq<Edit>)
    ensures ApplyPossible(p, es).original == p.original && ApplyPossible(p, es).txn == p.txn
    decreases |es|
  {
    if |es| > 0 {
      var q := if Possible(p, es[0]) then Apply(p, es[0]) else p;
      assert q.original == p.original && q.txn == p.txn;
      EditRunKeepsOriginal(q, es[1..]);
    }
  }

  /** Whatever the user edits, accepting keeps the edited feature and
      rejecting gives back the feature the panel was opened on. */
  lemma AcceptKeepsRejectRestores(f: DimFeature, es: seq<Edit>)
    ensures var q := ApplyPossible(OpenPanel(f), es);
            Accept(q, true).panel.feature == q.feature && Accept(q, true).panel.txn == Committed
            && Reject(q, true).panel.feature == f && Reject(q, true).panel.txn == Aborted
  {
    EditRunKeepsOriginal(OpenPanel(f), es);
  }
}

=== FILE: wrappers.dfy ===
/** Failure-compatible result types shared by the other modules. */
module Wrappers {

  /** A value that may be absent (Python `None`, a null pointer, an unset attribute). */
  datatype Option<+T> = None | Some(value: T)

  /** The outcome of an operation that can raise. */
  datatype Result<+R, +E> = Ok(value: R) | Err(error: E)

  /** True iff no element of `s` occurs twice. */
  predicate NoDup<T(==)>(s: seq<T>) {
    forall i, j :: 0 <= i < j < |s| ==> s[i] != s[j]
  }

  /** Python's `list.remove(x)`: drops the first occurrence of `x`, if any. */
  function RemoveFirst<T(==)>(s: seq<T>, x: T): (r: seq<T>)
    ensures x !in s ==> r == s
    ensures x in s ==> |r| == |s| - 1
    ensures forall y :: y in r ==> y in s
    ensures forall y :: y != x && y in s ==> y in r
    ensures NoDup(s) ==> NoDup(r) && x !in r
  {
    if |s| == 0 then []
    else if s[0] == x then s[1..]
    else
      assert NoDup(s) ==> NoDup(s[1..]) && s[0] !in s[1..];
      [s[0]] + RemoveFirst(s[1..], x)
  }

  /** `t` is `s` with some elements left out, the rest in their original order. */
  predicate Subsequence<T(==)>(t: seq<T>, s: seq<T>)
    decreases |s|
  {
    if |t| == 0 then true
    else if |s| == 0 then false
    else if t[0] == s[0] then Subsequence(t[1..], s[1..])
    else Subsequence(t, s[1..])
  }

  /** Appending the same element to both sides keeps a subsequence one, and
      so does appending it to the longer side only. */
  lemma {:induction false} SubsequenceSnoc<T>(t: seq<T>, s: seq<T>, x: T)
    requires Subsequence(t, s)
    ensures Subsequence(t, s + [x]) && Subsequence(t + [x], s + [x])
    decreases |s|
  {
    if |s| > 0 {
      assert (s + [x])[1..] == s[1..] + [x];
      if |t| > 0 && t[0] == s[0] {
        SubsequenceSnoc(t[1..], s[1..], x);
        assert (t + [x])[1..] == t[1..] + [x];
      } else {
        SubsequenceSnoc(t, s[1..], x);
      }
    }
  }
}
